=== FILE: README.md ===
# Transcript parser of the conversation viewer

The conversation viewer of the trading dashboard takes a pasted agent
transcript and shows only what the AI said. Its parser is the body of the
`messages` memo in `ConversationViewer.tsx`. It works in five steps:

1. Remove ANSI colour codes with one global regex replace.
2. Split the text on `\n`.
3. Run a line-by-line state machine. Boundary lines (`Human Message`,
   `Ai Message`, `Tool Message`) close the open message and open a new one.
   Field lines of tool messages (`Name:`, call ids, argument lines) set the
   tool fields. A `Tool Calls:` line of an ai message takes a bounded window
   of the lines after it. Separator lines and lines before the first boundary
   are skipped.
4. Close the last open message.
5. Keep only ai messages with content, then collapse adjacent repeats.

The model is pure Dafny, one module per concern:

- `Wrappers`: `Option`.
- `JsText`: the JavaScript string operations the parser uses, written out
  exactly. These are `trim` with JavaScript's whitespace set, `\s`, `\w`,
  `includes`, `indexOf`, `startsWith`, `split` and `join`.
- `Ansi`: the colour-code strip.
- `Patterns`: each regular expression as a function that follows
  JavaScript's leftmost, greedy, backtracking match.
- `Transcript`: messages, the scan, the filter, the dedup and `Parse`.
  - The scan classifies every line once into a `LineInfo`. This is the
    answer to every test the loop applies to it; each test depends on the
    line alone.
  - `Consume` is one turn of the `for` loop and `ScanFrom` is the loop.
- `WindowProps`, `ScanProps`, `GatherProps`, `OutputProps` and
  `ParserSpec`: properties of the window, the scan, where each message's
  lines come from, the output stage and the whole parser.

Further modelling choices:

- The scratch flag `inToolCall` always equals "the open message is a tool
  message", so it is not kept as separate state.
- The separate `toolName`, `toolCallId` and `toolArgs` locals always equal
  the open tool message's own fields.
- `obj["__proto__"] = "text"` leaves a plain object unchanged, and `Upsert`
  models that.

## Model

| member | source | states |
|---|---|---|
| JsText.Trim | frontend/app/app/components/conversation/ConversationViewer.tsx:18 | `trim` gives the empty string exactly when the text is all JavaScript whitespace; otherwise the result neither starts nor ends with whitespace and is no longer than the input |
| JsText.TrimSlice | frontend/app/app/components/conversation/ConversationViewer.tsx:18 | the trimmed text is the slice of the input between its leading and trailing whitespace: only whitespace lies outside it, and it neither starts nor ends with whitespace |
| JsText.TrimIdempotent | frontend/app/app/components/conversation/ConversationViewer.tsx:165 | trimming an already trimmed content changes nothing, so the dedup's `trim` on finalized contents is a no-op |
| JsText.Split | frontend/app/app/components/conversation/ConversationViewer.tsx:24 | `split('\n')` always gives at least one piece, no piece holds a newline, and joining the pieces with `\n` gives back the text |
| JsText.SplitJoin | frontend/app/app/components/conversation/ConversationViewer.tsx:24 | splitting the `\n`-join of newline-free pieces gives back exactly those pieces |
| JsText.IndexOf | frontend/app/app/components/conversation/ConversationViewer.tsx:37 | the position reported is an occurrence with no earlier occurrence, and none is reported only when the pattern occurs nowhere |
| Ansi.Strip | frontend/app/app/components/conversation/ConversationViewer.tsx:23 | the replace never lengthens the text and leaves text without a colour code unchanged |
| Ansi.StripKeepsText | frontend/app/app/components/conversation/ConversationViewer.tsx:23 | text without ESC comes through the replace unchanged and in order, whatever follows it |
| Ansi.StripDropsCode | frontend/app/app/components/conversation/ConversationViewer.tsx:23 | a colour code at the scan position is removed whole, and the replace goes on with the text right after it |
| Ansi.StripKeepsLoneEsc | frontend/app/app/components/conversation/ConversationViewer.tsx:23 | an ESC that starts no colour code is kept, and the replace goes on with the very next character |
| Ansi.StripKeepsLoneEscs | frontend/app/app/components/conversation/ConversationViewer.tsx:23 | the ESC characters left after the replace are exactly those of the input that do not start a colour code |
| Ansi.StripCleansWellFormedInput | frontend/app/app/components/conversation/ConversationViewer.tsx:23 | when every ESC of the input starts a colour code, the result has no ESC and no code left, and stripping again changes nothing |
| Ansi.StripIsSinglePass | frontend/app/app/components/conversation/ConversationViewer.tsx:23 | on ESC ESC `[m[m` the one-pass replace leaves the colour code ESC `[m` behind |
| Patterns.SeparatorHasEqualsRun | frontend/app/app/components/conversation/ConversationViewer.tsx:135 | a line of only `=`, thirty or more, contains a run of thirty `=`, so it also ends a tool-call window |
| Patterns.FramedIsContained | frontend/app/app/components/conversation/ConversationViewer.tsx:37 | a line matching the framed `={30,}.*M.*={30,}` form already contains the marker, so the regex half of each boundary test never decides anything |
| Patterns.CallIdAt | frontend/app/app/components/conversation/ConversationViewer.tsx:88 | `call_[a-zA-Z0-9]+` at the start of a string takes `call_` and the whole run of alphanumerics after it, and fails only when the string does not start with `call_` followed by an alphanumeric |
| Patterns.FirstCallId | frontend/app/app/components/conversation/ConversationViewer.tsx:88 | the call id found is the match at the leftmost position where `call_` and an alphanumeric start: `call_` and the whole run of alphanumerics after it, and no earlier position starts one. It occurs in the line, and none is found only when no position of the line starts one |
| Patterns.CallIdNeedsPrefix | frontend/app/app/components/conversation/ConversationViewer.tsx:87-88 | a line that yields a call id contains `call_`, so the call-id branch catches every line with an id |
| Patterns.FirstMatchAt | frontend/app/app/components/conversation/ConversationViewer.tsx:114 | an unanchored match found is the match at some position, and no earlier position matches |
| Patterns.ToolCallAtMeaning | frontend/app/app/components/conversation/ConversationViewer.tsx:114 | `\s+(\w+)\s+\(([^)]+)\)` matches at the start of a string with group 1 equal to a name exactly when the computed tool name is that name; the disjoint classes leave only one way to split a match |
| Patterns.ToolCallName | frontend/app/app/components/conversation/ConversationViewer.tsx:114-116 | the tool name found is group 1 of the regex at the leftmost position where it matches, with no match at any earlier position; it is a non-empty run of word characters, and none is found only when the regex matches at no position of the line |
| Patterns.ArgKey | frontend/app/app/components/conversation/ConversationViewer.tsx:94 | `^\s+\w+:` matches only after leading whitespace, and its key is the run of word characters between that whitespace and the colon. It fails only when the line has no leading whitespace or no colon directly ends a run of word characters after it |
| Patterns.ArgKeyMeaning | frontend/app/app/components/conversation/ConversationViewer.tsx:94-96 | the computed key is a given key exactly when `^\s+(\w+):` matches the line with that key as group 1 |
| Patterns.NameValueMeaning | frontend/app/app/components/conversation/ConversationViewer.tsx:83-84 | on a line whose trimmed text starts with `Name:`, replacing `Name:\s*` once and trimming yields the trimmed text after the label |
| Patterns.ArgEntryMeaning | frontend/app/app/components/conversation/ConversationViewer.tsx:96-98 | after the colon, a non-blank rest gives the trimmed text from its first non-blank character up to the next line terminator. A blank rest gives the empty value, and only when some character of it is not a line terminator; otherwise the regex fails and no key is set |
| WindowProps.TakenOrigins | frontend/app/app/components/conversation/ConversationViewer.tsx:112-113 | the lines pushed from a window are the texts of its non-blank lines, at strictly increasing positions, so each one once, in order, and none left out |
| WindowProps.TakenLinesAppend | frontend/app/app/components/conversation/ConversationViewer.tsx:112-113 | the lines pushed from two consecutive stretches of a window are those of the first followed by those of the second |
| Transcript.WindowEnd | frontend/app/app/components/conversation/ConversationViewer.tsx:108-110 | the window covers at most 19 lines after the `Tool Calls:` line, none of them holds a run of thirty `=`, and it ends at the input's end, at the limit or at such a run |
| Transcript.KeepAi | frontend/app/app/components/conversation/ConversationViewer.tsx:157-159 | the filter keeps exactly the messages that are ai with content or with a tool name, and nothing else |
| WindowProps.FoldCallsLastWrite | frontend/app/app/components/conversation/ConversationViewer.tsx:114-121 | after a window, each tool name is bound to the call id of the last taken window line naming it: the last write wins |
| WindowProps.FoldCallsUntouched | frontend/app/app/components/conversation/ConversationViewer.tsx:120-121 | keys no window line writes keep their presence and value, and `__proto__` is never stored |
| WindowProps.FoldCallsSome | frontend/app/app/components/conversation/ConversationViewer.tsx:120 | the ai message gets an argument object exactly when it had one or some taken window line has both a tool call and a call id |
| ScanProps.ScanFits | frontend/app/app/components/conversation/ConversationViewer.tsx:33-154 | every message's gathered lines are input lines that are not separator lines, plus the `Tool Calls:` header in ai messages; human and tool messages hold no boundary line, tool messages hold no field line; only tool messages carry a tool name and call id, human messages no argument object |
| GatherProps.ScanGathers | frontend/app/app/components/conversation/ConversationViewer.tsx:33-154 | each message is made of input lines after the boundary line the scan stopped at for it and before the next stop or the end of input, in input order and each at most once; the only other line is the `Tool Calls:` header of an ai message, standing for the input line that holds it |
| ScanProps.BoundaryPriority | frontend/app/app/components/conversation/ConversationViewer.tsx:37-67 | a line naming the human marker opens a human message whatever else it names, the ai marker beats the tool marker, and a line naming none opens nothing |
| ScanProps.BoundaryClosesAndOpens | frontend/app/app/components/conversation/ConversationViewer.tsx:37-79 | at a boundary line the open message is closed unchanged, the scan moves to the next line, and a message of the line's role is opened from scratch: no lines, and for a tool message an empty name, an empty call id and no arguments, while a human or ai message has no tool fields at all; nothing of the closed message carries over |
| ScanProps.SeparatorLineSkipped | frontend/app/app/components/conversation/ConversationViewer.tsx:134-137 | a line of thirty or more `=` leaves the open message as it is and emits nothing, whatever message is open and whatever follows |
| ScanProps.ToolFieldLine | frontend/app/app/components/conversation/ConversationViewer.tsx:82-103 | in a tool message a field line leaves the gathered lines alone. A `Name:` line sets the tool name to the trimmed text after the label. A line with a call id sets the call id to the first one; a line holding `Call ID:` or `call_` without a valid id changes nothing. An argument line assigns its trimmed value to its key, except that the key `__proto__` stores nothing and only makes sure the argument map exists; an argument line the argument regex rejects changes nothing |
| ScanProps.PlainLine | frontend/app/app/components/conversation/ConversationViewer.tsx:144-147 | in an open message, a line that is not a boundary, not a field line of a tool message, not a `Tool Calls:` line of an ai message and not a separator is added verbatim and nothing else changes |
| ScanProps.ScanEndCloses | frontend/app/app/components/conversation/ConversationViewer.tsx:151-154 | at the end of input the message still open is closed as it stands and is the last one emitted; with none open nothing more is emitted |
| ScanProps.PlainTail | frontend/app/app/components/conversation/ConversationViewer.tsx:144-154 | when every line after the current one is one the open message simply gathers, the scan emits exactly that message, closed at the end of input with all those lines appended in order and its role and tool fields unchanged |
| ScanProps.ToolCallsLine | frontend/app/app/components/conversation/ConversationViewer.tsx:106-131 | a `Tool Calls:` line of an ai message adds the header once, then the non-blank window lines in order. It records their calls in the argument object and changes no other field. The scan resumes at the first line the window did not take |
| ScanProps.WindowSwallowsLine | frontend/app/app/components/conversation/ConversationViewer.tsx:110-113 | a non-blank line right after `Tool Calls:` without a run of thirty `=` is taken into the ai message whatever it says |
| ScanProps.BoundaryInsideWindow | frontend/app/app/components/conversation/ConversationViewer.tsx:37 | a bare `Human Message` line is a boundary line that a window nevertheless takes, so after `Tool Calls:` it opens no human message |
| ScanProps.PreambleIgnored | frontend/app/app/components/conversation/ConversationViewer.tsx:139-147 | lines before the first boundary, blank or not, contribute to no message |
| ScanProps.NoBoundaryNoMessage | frontend/app/app/components/conversation/ConversationViewer.tsx:33-154 | input without a boundary line yields no message at all |
| ScanProps.ScanFollowsBoundaries | frontend/app/app/components/conversation/ConversationViewer.tsx:37-154 | messages come out in input order, one per boundary line the scan stops at, each with the role that line names |
| ScanProps.StopsAtEveryBoundary | frontend/app/app/components/conversation/ConversationViewer.tsx:33-79 | in a transcript without a `Tool Calls:` line the scan stops at exactly the boundary lines |
| OutputProps.DedupIsRunHeads | frontend/app/app/components/conversation/ConversationViewer.tsx:162-168 | the dedup loop keeps exactly the first message of every run of equal trimmed contents, in order |
| OutputProps.DedupNoRepeats | frontend/app/app/components/conversation/ConversationViewer.tsx:162-168 | after the dedup no two neighbours have equal trimmed content |
| OutputProps.DedupKeepsFirst | frontend/app/app/components/conversation/ConversationViewer.tsx:162-168 | the dedup only drops messages, and a non-empty list keeps its first message |
| OutputProps.KeepAiAppend | frontend/app/app/components/conversation/ConversationViewer.tsx:157-159 | the filter commutes with concatenation, so it keeps input order |
| ParserSpec.MessagesFit | frontend/app/app/components/conversation/ConversationViewer.tsx:51-62 | an ai message is opened without tool name or call id and no later line gives it one, and every message is closed with its lines joined and trimmed, so every finalized content is already trimmed |
| ParserSpec.KeepAiIsAiReplies | frontend/app/app/components/conversation/ConversationViewer.tsx:157-159 | without tool names on ai messages, the `content \|\| toolName` filter keeps exactly the ai messages with non-empty content |
| ParserSpec.ParseIsRunHeadsOfReplies | frontend/app/app/components/conversation/ConversationViewer.tsx:17-176 | blank input gives no reply. Otherwise the parser returns the first message of each run of equal ai replies with content, in transcript order |
| ParserSpec.ParseShape | frontend/app/app/components/conversation/ConversationViewer.tsx:151-170 | every reply returned is an ai message of the transcript with non-empty trimmed content and no tool fields; no two neighbours repeat; the first ai reply always survives |
| ParserSpec.NoBoundaryNoReply | frontend/app/app/components/conversation/ConversationViewer.tsx:17-176 | a transcript without a boundary line yields no reply |

## Left out

- React state, the `useMemo` wrapper, the paste and file handlers, `fetch('/api/conversation')` and the JSX are not modelled. They are UI and I/O.
- The `catch` block (`setError`) is not modelled; the model of the parser is total, as the parsing statements only read strings and arrays they have just built.
- Dafny characters are Unicode scalar values, while JavaScript strings are UTF-16 code units. Surrogate pairs are not modelled; the parser only tests ASCII and whitespace characters.
- `toolArgs` is typed `Record<string, any>` in the interface, but this parser only ever stores strings, so it is modelled as a map from string to string.
- The key order of `toolArgs` is not modelled. A JavaScript object keeps its keys in insertion order, with integer-like keys first, and the viewer prints that order through `JSON.stringify(message.toolArgs, null, 2)` at ConversationViewer.tsx:311; a Dafny `map` has no order, so the model promises only which keys hold which values.
- Ansi.Strip: does not promise that no colour code remains. The source's replace is a single pass, and `Ansi.StripIsSinglePass` shows a code that survives; the clean result is proved only for input whose every ESC starts a code (`Ansi.StripCleansWellFormedInput`).
- ScanProps.ScanFits: does not state that ai messages never hold a boundary line. A `Tool Calls:` window takes boundary lines that lack a run of thirty `=` (`ScanProps.WindowSwallowsLine`), so that stronger property is false for the source.
- ScanProps.StopsAtEveryBoundary: is stated only for transcripts without a `Tool Calls:` line. A window can take boundary lines, so in general the scan stops at some boundary lines but not necessarily all (`ScanProps.ScanFollowsBoundaries` covers the general case).
- The dashboard widgets, homepage, navigation and the Python backend are not part of this model. They are fetch timers, DOM, date and float formatting, Flask handlers, broker APIs and file I/O.

=== FILE: ansi.dfy ===
/** Removal of ANSI SGR colour codes, `text.replace(/\u001b\[[0-9;]*m/g, '')`:
    one left-to-right pass that deletes every match it meets and resumes
    after it. */
module Ansi {
  import opened Wrappers

  const Esc: char := '\U{001B}'

  /** The class `[0-9;]` of a colour code's parameter list. */
  predicate IsParamChar(c: char) {
    ('0' <= c <= '9') || c == ';'
  }

  /** Length of the run of parameter characters `s` starts with. */
  function ParamRun(s: string): (n: nat)
    ensures n <= |s|
    ensures forall k | 0 <= k < n :: IsParamChar(s[k])
    ensures n < |s| ==> !IsParamChar(s[n])
  {
    if |s| == 0 || !IsParamChar(s[0]) then 0
    else
      var m := ParamRun(s[1..]);
      assert forall k | 1 <= k < 1 + m :: s[k] == s[1..][k - 1];
      1 + m
  }

  /** Shape of a colour code of length `n` at the start of `s`. */
  predicate IsCode(s: string, n: nat) {
    && 3 <= n <= |s|
    && s[0] == Esc && s[1] == '[' && s[n - 1] == 'm'
    && forall k | 2 <= k < n - 1 :: IsParamChar(s[k])
  }

  /** Length of the colour code that starts `s`, if the regex matches there.
      The greedy `[0-9;]*` cannot give back characters usefully, since `m`
      is not a parameter character, so the match is unique. */
  function CodeAt(s: string): (r: Option<nat>)
    ensures r.Some? ==> IsCode(s, r.value)
    ensures r.None? ==> forall n: nat :: !IsCode(s, n)
  {
    if |s| >= 2 && s[0] == Esc && s[1] == '[' then
      var q := 2 + ParamRun(s[2..]);
      assert forall k | 2 <= k < q :: s[k] == s[2..][k - 2];
      if q < |s| && s[q] == 'm' then Some(q + 1)
      else
        None
    else None
  }

  /** No colour code starts anywhere in `s`. */
  predicate NoCode(s: string) {
    forall k | 0 <= k < |s| :: CodeAt(s[k..]).None?
  }

  /** The global replace: a match at the scan position is dropped and the scan
      resumes after it; otherwise one character is kept. */
  function Strip(s: string): (r: string)
    ensures |r| <= |s|
    ensures NoCode(s) ==> r == s
    decreases |s|
  {
    if |s| == 0 then []
    else
      match CodeAt(s)
      case Some(n) =>
        assert s[0..] == s;
        Strip(s[n..])
      case None =>
        assert NoCode(s) ==> NoCode(s[1..]) by {
          assert forall k | 0 <= k < |s| - 1 :: s[1..][k..] == s[k + 1..];
        }
        [s[0]] + Strip(s[1..])
  }

  /** Text without ESC passes through the replace unchanged and in order,
      whatever follows it. */
  lemma {:induction false} StripKeepsText(x: string, y: string)
    requires Esc !in x
    ensures Strip(x + y) == x + Strip(y)
    decreases |x|
  {
    if |x| == 0 {
      assert x + y == y;
    } else {
      assert x[0] in x;
      assert Esc !in x[1..];
      StripKeepsText(x[1..], y);
      StripKeepsChar(x + y);
      SeqTail(x, y);
      SeqHead(x, Strip(y));
    }
  }

  /** Sequence facts kept apart from `Strip`, whose unfolding makes them
      costly to rediscover in place. */
  lemma SeqTail(x: string, y: string)
    requires |x| > 0
    ensures (x + y)[1..] == x[1..] + y
  {
  }

  lemma SeqHead(x: string, r: string)
    requires |x| > 0
    ensures [x[0]] + (x[1..] + r) == x + r
  {
    assert x == [x[0]] + x[1..];
  }

  /** A character other than ESC at the scan position is kept. */
  lemma StripKeepsChar(s: string)
    requires |s| > 0 && s[0] != Esc
    ensures Strip(s) == [s[0]] + Strip(s[1..])
  {
  }

  /** An ESC that starts no colour code is kept, and the scan goes on with
      the very next character. */
  lemma StripKeepsLoneEsc(s: string)
    requires |s| > 0 && s[0] == Esc && CodeAt(s).None?
    ensures Strip(s) == [Esc] + Strip(s[1..])
  {
  }

  /** A colour code at the scan position is removed whole and nothing
      after it: the match cannot stop early or run on, since its last
      character `m` is not a parameter character. */
  lemma StripDropsCode(c: string, y: string)
    requires IsCode(c, |c|)
    ensures Strip(c + y) == Strip(y)
  {
    var s := c + y;
    assert IsCode(s, |c|);
    assert CodeAt(s) == Some(|c|);
    assert s[|c|..] == y;
  }

  function CountChar(s: string, c: char): nat {
    if |s| == 0 then 0 else (if s[0] == c then 1 else 0) + CountChar(s[1..], c)
  }

  /** Number of ESC characters of `s` that do not open a colour code, counted
      over every position of `s` (not only those the replace visits). */
  function LoneEscCount(s: string): nat {
    if |s| == 0 then 0
    else (if s[0] == Esc && CodeAt(s).None? then 1 else 0) + LoneEscCount(s[1..])
  }

  /** Skipping a prefix that holds no lone ESC leaves the count unchanged. */
  lemma {:induction false} LoneEscCountSkip(s: string, n: nat)
    requires n <= |s|
    requires forall k | 0 <= k < n :: s[k] != Esc || CodeAt(s[k..]).Some?
    ensures LoneEscCount(s) == LoneEscCount(s[n..])
    decreases n
  {
    if n > 0 {
      assert s[1..][n - 1..] == s[n..];
      forall k | 0 <= k < n - 1 ensures s[1..][k] != Esc || CodeAt(s[1..][k..]).Some? {
        assert s[1..][k..] == s[k + 1..];
      }
      LoneEscCountSkip(s[1..], n - 1);
    }
  }

  /** The replace keeps exactly the ESC characters that do not open a
      colour code and removes every one that does. */
  lemma {:induction false} StripKeepsLoneEscs(s: string)
    ensures CountChar(Strip(s), Esc) == LoneEscCount(s)
    decreases |s|
  {
    if |s| > 0 {
      match CodeAt(s)
      case Some(n) =>
        assert forall k | 1 <= k < n :: s[k] != Esc;
        LoneEscCountSkip(s[1..], n - 1) by {
          forall k | 0 <= k < n - 1 ensures s[1..][k] != Esc {
            assert s[1..][k] == s[k + 1];
          }
        }
        assert s[1..][n - 1..] == s[n..];
        StripKeepsLoneEscs(s[n..]);
      case None =>
        assert ([s[0]] + Strip(s[1..]))[1..] == Strip(s[1..]);
        StripKeepsLoneEscs(s[1..]);
    }
  }

  lemma {:induction false} NoEscNoCode(s: string)
    requires CountChar(s, Esc) == 0
    ensures NoCode(s)
    decreases |s|
  {
    if |s| > 0 {
      NoEscNoCode(s[1..]);
      forall k | 0 <= k < |s| ensures CodeAt(s[k..]).None? {
        if k > 0 {
          assert s[k..] == s[1..][k - 1..];
        }
      }
    }
  }

  /** When every ESC of the input opens a colour code, the output holds no ESC
      and therefore no colour code, and a second pass changes nothing. */
  lemma StripCleansWellFormedInput(s: string)
    requires forall k | 0 <= k < |s| && s[k] == Esc :: CodeAt(s[k..]).Some?
    ensures Esc !in Strip(s)
    ensures NoCode(Strip(s))
    ensures Strip(Strip(s)) == Strip(s)
  {
    LoneEscCountSkip(s, |s|);
    StripKeepsLoneEscs(s);
    CountZero(Strip(s));
    NoEscNoCode(Strip(s));
  }

  lemma {:induction false} CountZero(s: string)
    requires CountChar(s, Esc) == 0
    ensures Esc !in s
    decreases |s|
  {
    if |s| > 0 {
      CountZero(s[1..]);
      assert s == [s[0]] + s[1..];
    }
  }

  /** A single pass can leave a colour code behind: deleting the inner code of
      ESC ESC [ m [ m joins the outer ESC to the trailing `[m`. */
  lemma StripIsSinglePass()
    ensures var s := [Esc, Esc, '[', 'm', '[', 'm'];
            Strip(s) == [Esc, '[', 'm'] && !NoCode(Strip(s))
  {
    var s := [Esc, Esc, '[', 'm', '[', 'm'];
    assert CodeAt(s).None?;
    assert CodeAt(s[1..]) == Some(3);
    assert s[1..][3..] == ['[', 'm'];
    assert CodeAt(['[', 'm']).None?;
    assert CodeAt(['m']).None?;
    assert Strip(['[', 'm']) == ['[', 'm'];
    assert Strip(s) == [Esc, '[', 'm'];
    assert CodeAt([Esc, '[', 'm']) == Some(3);
  }
}

=== FILE: gather_props.dfy ===
/** Where a message's lines come from: every gathered line is an input line
    after the boundary line that opened the message and before the
    boundary line the scan next stops at, taken in input order and at most
    once. */
module GatherProps {
  import opened Wrappers
  import opened JsText
  import opened Transcript
  import opened WindowProps
  import opened ScanProps

  /** A message of role `role` may hold line `l` for the classified line
      `x`: its text, or, in an ai message, the `Tool Calls:` header for the
      line that holds it. */
  predicate Drawn(x: LineInfo, role: Role, l: string) {
    x.text == l || (role == Ai && x.toolCalls && l == ToolCallsHeader)
  }

  /** `ls[t]` is drawn from the line at `js[t]`; the positions lie strictly
      between `lo` and `hi` and strictly increase. */
  predicate DrawnAt(infos: seq<LineInfo>, lo: nat, hi: nat, role: Role, ls: seq<string>, js: seq<nat>) {
    && |js| == |ls|
    && (forall t | 0 <= t < |js| :: lo < js[t] < hi && js[t] < |infos| && Drawn(infos[js[t]], role, ls[t]))
    && (forall t | 0 < t < |js| :: js[t - 1] < js[t])
  }

  ghost predicate DrawnFrom(infos: seq<LineInfo>, lo: nat, hi: nat, d: Draft) {
    exists js: seq<nat> :: DrawnAt(infos, lo, hi, d.role, d.lines, js)
  }

  /** The end of the stretch that belongs to the message opened at stop
      `k - 1`: the next stop, or the end of input. */
  function Bound(ps: seq<nat>, k: nat, n: nat): nat {
    if k < |ps| then ps[k] else n
  }

  /** `ds` holds the open message (if `open`), drawn from after `o`, and one
      message per stop of `ps`, each drawn from between its stop and the
      next. */
  ghost predicate GatherFits(infos: seq<LineInfo>, o: nat, open: bool, ps: seq<nat>, ds: seq<Draft>) {
    var off := if open then 1 else 0;
    && |ds| == off + |ps|
    && (open ==> DrawnFrom(infos, o, Bound(ps, 0, |infos|), ds[0]))
    && forall k | 0 <= k < |ps| :: DrawnFrom(infos, ps[k], Bound(ps, k + 1, |infos|), ds[off + k])
  }

  lemma DrawnWiden(infos: seq<LineInfo>, lo: nat, hi: nat, hi': nat, role: Role, ls: seq<string>, js: seq<nat>)
    requires DrawnAt(infos, lo, hi, role, ls, js) && hi <= hi'
    ensures DrawnAt(infos, lo, hi', role, ls, js)
  {
  }

  /** Lines drawn before `mid` followed by lines drawn from `mid` on. */
  lemma DrawnAppend(infos: seq<LineInfo>, lo: nat, mid: nat, hi: nat, role: Role,
                    ls1: seq<string>, js1: seq<nat>, ls2: seq<string>, js2: seq<nat>)
    requires 0 < mid
    requires DrawnAt(infos, lo, mid, role, ls1, js1)
    requires DrawnAt(infos, mid - 1, hi, role, ls2, js2)
    requires lo < mid <= hi
    ensures DrawnAt(infos, lo, hi, role, ls1 + ls2, js1 + js2)
  {
    var ls := ls1 + ls2;
    var js := js1 + js2;
    forall t | 0 <= t < |js|
      ensures lo < js[t] < hi && js[t] < |infos| && Drawn(infos[js[t]], role, ls[t])
    {
      if t < |js1| {
        assert js[t] == js1[t] && ls[t] == ls1[t];
      } else {
        assert js[t] == js2[t - |js1|] && ls[t] == ls2[t - |js1|];
      }
    }
    forall t | 0 < t < |js|
      ensures js[t - 1] < js[t]
    {
      if t < |js1| {
        assert js[t - 1] == js1[t - 1] && js[t] == js1[t];
      } else if t == |js1| {
        assert js[t] == js2[0];
      } else {
        assert js[t - 1] == js2[t - 1 - |js1|] && js[t] == js2[t - |js1|];
      }
    }
  }

  /** Taken window lines at positions `ks` of `infos[a..e]` are drawn from
      the positions `ks` shifted by `a`. */
  lemma TakenDrawn(infos: seq<LineInfo>, a: nat, e: nat, role: Role, ks: seq<nat>, out: seq<string>)
    returns (js: seq<nat>)
    requires 0 < a <= e <= |infos| && TakenAt(infos[a..e], ks, out)
    ensures DrawnAt(infos, a - 1, e, role, out, js)
  {
    var ws := infos[a..e];
    js := seq(|ks|, t requires 0 <= t < |ks| => ks[t] + a);
    forall t | 0 <= t < |js|
      ensures a - 1 < js[t] < e && js[t] < |infos| && Drawn(infos[js[t]], role, out[t])
    {
      assert infos[js[t]] == ws[ks[t]];
    }
  }

  /** What a `Tool Calls:` line at `i` adds to an ai message is drawn from
      that line and its window. */
  lemma WindowDrawn(infos: seq<LineInfo>, i: nat) returns (js: seq<nat>)
    requires 0 < i < |infos| && infos[i].toolCalls
    ensures var e := WindowEnd(infos, i, i + 1);
      DrawnAt(infos, i - 1, e, Ai, [ToolCallsHeader] + TakenLines(infos[i + 1..e]), js)
  {
    var e := WindowEnd(infos, i, i + 1);
    var ws := infos[i + 1..e];
    var ks := TakenOrigins(ws);
    var js2 := TakenDrawn(infos, i + 1, e, Ai, ks, TakenLines(ws));
    assert DrawnAt(infos, i - 1, i + 1, Ai, [ToolCallsHeader], [i]);
    DrawnAppend(infos, i - 1, i + 1, e, Ai, [ToolCallsHeader], [i], TakenLines(ws), js2);
    js := [i] + js2;
  }

  /** Away from a boundary line an open message keeps its role and either
      keeps its lines, or (an ai message at a `Tool Calls:` line) gains the
      header and the taken window lines and the scan resumes after the
      window, or gains the line itself. */
  lemma ConsumeShape(infos: seq<LineInfo>, i: nat, d: Draft)
    requires i < |infos| && infos[i].boundary.None?
    ensures var s := Consume(infos, i, Some(d));
      && s.current.Some? && s.current.value.role == d.role
      && (|| s.current.value.lines == d.lines
          || (&& d.role == Ai && infos[i].toolCalls && s.next == WindowEnd(infos, i, i + 1)
              && s.current.value.lines == d.lines + ([ToolCallsHeader] + TakenLines(infos[i + 1..s.next])))
          || (s.next == i + 1 && s.current.value.lines == d.lines + [infos[i].text]))
  {
  }

  /** Away from a boundary line, one step keeps the open message drawn from
      after `o`, now up to where the scan resumes. */
  lemma GatherStep(infos: seq<LineInfo>, i: nat, current: Option<Draft>, o: nat)
    requires i < |infos| && infos[i].boundary.None?
    requires current.Some? && o < i && DrawnFrom(infos, o, i, current.value)
    ensures var s := Consume(infos, i, current);
      s.current.Some? && DrawnFrom(infos, o, s.next, s.current.value)
  {
    var d := current.value;
    var s := Consume(infos, i, current);
    ConsumeShape(infos, i, d);
    var d' := s.current.value;
    var js :| DrawnAt(infos, o, i, d.role, d.lines, js);
    if d'.lines == d.lines {
      DrawnWiden(infos, o, i, s.next, d.role, d.lines, js);
      assert DrawnAt(infos, o, s.next, d'.role, d'.lines, js);
    } else if d.role == Ai && infos[i].toolCalls && s.next == WindowEnd(infos, i, i + 1)
              && d'.lines == d.lines + ([ToolCallsHeader] + TakenLines(infos[i + 1..s.next])) {
      var js2 := WindowDrawn(infos, i);
      DrawnAppend(infos, o, i, s.next, Ai, d.lines, js, [ToolCallsHeader] + TakenLines(infos[i + 1..s.next]), js2);
      assert DrawnAt(infos, o, s.next, d'.role, d'.lines, js + js2);
    } else {
      assert DrawnAt(infos, i - 1, i + 1, d.role, [infos[i].text], [i]);
      DrawnAppend(infos, o, i, i + 1, d.role, d.lines, js, [infos[i].text], [i]);
      assert DrawnAt(infos, o, s.next, d'.role, d'.lines, js + [i]);
    }
  }

  /** A boundary stop at `i` in front of the rest of the scan. */
  lemma GatherCons(infos: seq<LineInfo>, o: nat, i: nat, head: seq<Draft>, ps': seq<nat>, ds': seq<Draft>)
    requires i < |infos| && |head| <= 1
    requires |head| == 1 ==> DrawnFrom(infos, o, i, head[0])
    requires GatherFits(infos, i, true, ps', ds')
    ensures GatherFits(infos, o, |head| == 1, [i] + ps', head + ds')
  {
    var ps := [i] + ps';
    var ds := head + ds';
    forall k | 0 <= k < |ps|
      ensures DrawnFrom(infos, ps[k], Bound(ps, k + 1, |infos|), ds[|head| + k])
    {
      GatherConsAt(infos, i, head, ps', ds', k);
    }
    if |head| == 1 {
      assert ds[0] == head[0] && Bound(ps, 0, |infos|) == i;
    }
  }

  lemma GatherConsAt(infos: seq<LineInfo>, i: nat, head: seq<Draft>, ps': seq<nat>, ds': seq<Draft>, k: nat)
    requires GatherFits(infos, i, true, ps', ds') && k < 1 + |ps'|
    ensures DrawnFrom(infos, ([i] + ps')[k], Bound([i] + ps', k + 1, |infos|), (head + ds')[|head| + k])
  {
    var ps := [i] + ps';
    var ds := head + ds';
    if k == 0 {
      assert ds[|head|] == ds'[0] && Bound(ps, 1, |infos|) == Bound(ps', 0, |infos|);
    } else {
      assert ps[k] == ps'[k - 1] && ds[|head| + k] == ds'[1 + (k - 1)];
      assert Bound(ps, k + 1, |infos|) == Bound(ps', k, |infos|);
    }
  }

  /** At a boundary line at `i` the open message, drawn up to `i`, is
      closed, and the stops from `i` on begin with `i`. */
  lemma GatherStepBoundary(infos: seq<LineInfo>, i: nat, current: Option<Draft>, o: nat, s: Step)
    requires i < |infos| && infos[i].boundary.Some? && s == Consume(infos, i, current)
    requires current.Some? ==> DrawnFrom(infos, o, i, current.value)
    requires GatherFits(infos, i, true, BoundaryPositions(infos, i + 1, s.current), ScanFrom(infos, i + 1, s.current))
    ensures GatherFits(infos, o, current.Some?, BoundaryPositions(infos, i, current), ScanFrom(infos, i, current))
  {
    BoundaryClosesAndOpens(infos, i, current);
    PositionsStepped(infos, i, current, s);
    ScanFromStepped(infos, i, current, s);
    var head := if current.Some? then [current.value] else [];
    GatherCons(infos, o, i, head, BoundaryPositions(infos, i + 1, s.current), ScanFrom(infos, i + 1, s.current));
  }

  /** Away from a boundary line the stops and the messages are those of
      the rest of the scan. */
  lemma GatherStepPlain(infos: seq<LineInfo>, i: nat, current: Option<Draft>, o: nat, s: Step)
    requires i < |infos| && infos[i].boundary.None? && s == Consume(infos, i, current)
    requires GatherFits(infos, o, s.current.Some?, BoundaryPositions(infos, s.next, s.current), ScanFrom(infos, s.next, s.current))
    ensures GatherFits(infos, o, current.Some?, BoundaryPositions(infos, i, current), ScanFrom(infos, i, current))
  {
    ConsumeKeepsRole(infos, i, current);
    PositionsStepped(infos, i, current, s);
    ScanFromStepped(infos, i, current, s);
  }

  lemma {:induction false} ScanFromGathers(infos: seq<LineInfo>, i: nat, current: Option<Draft>, o: nat)
    requires i <= |infos|
    requires current.Some? ==> o < i && DrawnFrom(infos, o, i, current.value)
    ensures GatherFits(infos, o, current.Some?, BoundaryPositions(infos, i, current), ScanFrom(infos, i, current))
    decreases |infos| - i
  {
    if i < |infos| {
      var s := Consume(infos, i, current);
      if infos[i].boundary.Some? {
        BoundaryClosesAndOpens(infos, i, current);
        assert DrawnAt(infos, i, i + 1, s.current.value.role, s.current.value.lines, []);
        ScanFromGathers(infos, i + 1, s.current, i);
        GatherStepBoundary(infos, i, current, o, s);
      } else {
        ConsumeKeepsRole(infos, i, current);
        if current.Some? {
          GatherStep(infos, i, current, o);
        }
        ScanFromGathers(infos, s.next, s.current, o);
        GatherStepPlain(infos, i, current, o, s);
      }
    }
  }

  /** `d`'s `t`-th line is input line `js[t]`, or, in an ai message, the
      `Tool Calls:` header standing for input line `js[t]` that holds it;
      the positions lie strictly between `lo` and `hi` and strictly
      increase. */
  predicate LinesAt(lines: seq<string>, lo: nat, hi: nat, d: Draft, js: seq<nat>) {
    && |js| == |d.lines|
    && (forall t | 0 <= t < |js| ::
          && lo < js[t] < hi && js[t] < |lines|
          && (d.lines[t] == lines[js[t]]
              || (d.role == Ai && d.lines[t] == ToolCallsHeader && Contains(lines[js[t]], ToolCallsHeader))))
    && (forall t | 0 < t < |js| :: js[t - 1] < js[t])
  }

  ghost predicate DrawnBetween(lines: seq<string>, lo: nat, hi: nat, d: Draft) {
    exists js: seq<nat> :: LinesAt(lines, lo, hi, d, js)
  }

  lemma DrawnOnLines(lines: seq<string>, lo: nat, hi: nat, d: Draft)
    requires DrawnFrom(ClassifyAll(lines), lo, hi, d)
    ensures DrawnBetween(lines, lo, hi, d)
  {
    var infos := ClassifyAll(lines);
    var js :| DrawnAt(infos, lo, hi, d.role, d.lines, js);
    forall t | 0 <= t < |js|
      ensures d.lines[t] == lines[js[t]]
              || (d.role == Ai && d.lines[t] == ToolCallsHeader && Contains(lines[js[t]], ToolCallsHeader))
    {
      assert infos[js[t]] == Classify(lines[js[t]]);
    }
    assert LinesAt(lines, lo, hi, d, js);
  }

  /** Each message of the transcript is made of the lines after the
      boundary line the scan stopped at for it and before the next stop
      (or the end of input), in input order and each at most once; the
      only line that is not an input line is the `Tool Calls:` header of
      an ai message, which stands for the input line holding it. */
  lemma ScanGathers(lines: seq<string>)
    ensures var ps := Stops(lines);
      && |Scan(lines)| == |ps|
      && forall k | 0 <= k < |ps| :: DrawnBetween(lines, ps[k], Bound(ps, k + 1, |lines|), Scan(lines)[k])
  {
    var infos := ClassifyAll(lines);
    ScanFromGathers(infos, 0, None, 0);
    var ps := Stops(lines);
    forall k | 0 <= k < |ps|
      ensures DrawnBetween(lines, ps[k], Bound(ps, k + 1, |lines|), Scan(lines)[k])
    {
      DrawnOnLines(lines, ps[k], Bound(ps, k + 1, |lines|), Scan(lines)[k]);
    }
  }
}

=== FILE: js_text.dfy ===
/** The string primitives of JavaScript that the transcript parser relies on:
    the whitespace class shared by `String.prototype.trim` and the regex `\s`,
    `trim`, `includes`, `startsWith`, `indexOf`, `split` on one character and
    `Array.prototype.join`.  Strings are sequences of Unicode scalar values. */
module JsText {
  import opened Wrappers

  /** WhiteSpace and LineTerminator code points of ECMAScript: the set that
      `trim` removes and that the regex class `\s` matches. */
  predicate IsSpace(c: char) {
    || c == '\t' || c == '\n' || c == '\U{000B}' || c == '\U{000C}' || c == '\r'
    || c == ' ' || c == '\U{00A0}' || c == '\U{1680}' || ('\U{2000}' <= c <= '\U{200A}')
    || c == '\U{2028}' || c == '\U{2029}' || c == '\U{202F}' || c == '\U{205F}'
    || c == '\U{3000}' || c == '\U{FEFF}'
  }

  /** The characters the regex `.` does not match (no `s` flag). */
  predicate IsLineTerminator(c: char) {
    c == '\n' || c == '\r' || c == '\U{2028}' || c == '\U{2029}'
  }

  /** The regex class `\w`. */
  predicate IsWordChar(c: char) {
    ('A' <= c <= 'Z') || ('a' <= c <= 'z') || ('0' <= c <= '9') || c == '_'
  }

  /** The regex class `[a-zA-Z0-9]`. */
  predicate IsAlnum(c: char) {
    ('A' <= c <= 'Z') || ('a' <= c <= 'z') || ('0' <= c <= '9')
  }

  predicate AllSpace(s: string) {
    forall k | 0 <= k < |s| :: IsSpace(s[k])
  }

  /** Length of the longest prefix of `s` whose characters all satisfy `p`:
      what a greedy `[class]*` consumes. */
  function Span(s: string, p: char -> bool): (n: nat)
    ensures n <= |s|
    ensures forall k | 0 <= k < n :: p(s[k])
    ensures n < |s| ==> !p(s[n])
  {
    if |s| == 0 || !p(s[0]) then 0
    else
      var m := Span(s[1..], p);
      assert forall k | 1 <= k < 1 + m :: s[k] == s[1..][k - 1];
      1 + m
  }

  /** End of the longest run of characters satisfying `p` that starts at
      index `a`. */
  function SpanFrom(s: string, a: nat, p: char -> bool): (b: nat)
    requires a <= |s|
    ensures a <= b <= |s|
    ensures forall k | a <= k < b :: p(s[k])
    ensures b < |s| ==> !p(s[b])
    decreases |s| - a
  {
    if a == |s| || !p(s[a]) then a else SpanFrom(s, a + 1, p)
  }

  lemma SliceConcat(s: string, i: nat, j: nat)
    requires i <= j <= |s|
    ensures s[i..] == s[i..j] + s[j..]
  {
  }

  /** A run that ends where `p` first fails is the span. */
  lemma {:induction false} SpanFromExact(s: string, a: nat, p: char -> bool, b: nat)
    requires a <= b <= |s|
    requires forall k | a <= k < b :: p(s[k])
    requires b < |s| ==> !p(s[b])
    ensures SpanFrom(s, a, p) == b
    decreases b - a
  {
    if a < b {
      SpanFromExact(s, a + 1, p, b);
    }
  }

  /** Number of whitespace characters `s` starts with. */
  function LeadingSpace(s: string): (n: nat)
    ensures n <= |s|
    ensures AllSpace(s[..n])
    ensures n < |s| ==> !IsSpace(s[n])
  {
    if |s| == 0 || !IsSpace(s[0]) then 0
    else
      var m := LeadingSpace(s[1..]);
      assert forall k | 1 <= k < 1 + m :: s[k] == s[1..][..m][k - 1];
      1 + m
  }

  /** `trimStart`: the text after the leading whitespace. */
  function TrimStart(s: string): string {
    s[LeadingSpace(s)..]
  }

  lemma AllSpaceTail(s: string)
    requires |s| > 0 && IsSpace(s[0])
    ensures AllSpace(s) <==> AllSpace(s[1..])
  {
    if AllSpace(s[1..]) {
      forall k | 0 <= k < |s| ensures IsSpace(s[k]) {
        if k > 0 {
          assert s[k] == s[1..][k - 1];
        }
      }
    }
  }

  /** `String.prototype.trim`: whitespace is removed from the front, then
      from the back. */
  function Trim(s: string): (r: string)
    ensures |r| <= |s|
    ensures r == [] <==> AllSpace(s)
    ensures r != [] ==> !IsSpace(r[0]) && !IsSpace(r[|r| - 1])
    decreases |s|
  {
    if |s| > 0 && IsSpace(s[0]) then
      AllSpaceTail(s);
      Trim(s[1..])
    else if |s| > 0 && IsSpace(s[|s| - 1]) then
      assert s[..|s| - 1][0] == s[0];
      Trim(s[..|s| - 1])
    else
      s
  }

  lemma AllSpaceAppend(a: string, b: string)
    requires AllSpace(a) && AllSpace(b)
    ensures AllSpace(a + b)
  {
    forall k | 0 <= k < |a + b| ensures IsSpace((a + b)[k]) {
      if k < |a| {
        assert (a + b)[k] == a[k];
      } else {
        assert (a + b)[k] == b[k - |a|];
      }
    }
  }

  lemma AllSpaceSlice(s: string, i: nat, j: nat)
    requires AllSpace(s) && i <= j <= |s|
    ensures AllSpace(s[i..j])
  {
    forall k | 0 <= k < j - i ensures IsSpace(s[i..j][k]) {
      assert s[i..j][k] == s[i + k];
    }
  }

  lemma {:induction false} LeadingSpaceExact(s: string, a: nat)
    requires a <= |s| && AllSpace(s[..a]) && (a < |s| ==> !IsSpace(s[a]))
    ensures LeadingSpace(s) == a
    decreases a
  {
    if a > 0 {
      assert s[1..][..a - 1] == s[1..a];
      assert a - 1 < |s| - 1 ==> s[1..][a - 1] == s[a];
      LeadingSpaceExact(s[1..], a - 1);
    }
  }

  /** `s[a..b]` is `s` without whitespace around it and with none at its
      ends. */
  predicate TrimCut(s: string, a: nat, b: nat) {
    && a <= b <= |s|
    && AllSpace(s[..a]) && AllSpace(s[b..])
    && (a < b ==> !IsSpace(s[a]) && !IsSpace(s[b - 1]))
  }

  lemma CutFront(s: string, a: nat, b: nat)
    requires |s| > 0 && IsSpace(s[0]) && TrimCut(s[1..], a, b)
    ensures TrimCut(s, a + 1, b + 1)
  {
    var t := s[1..];
    assert s[..a + 1] == [s[0]] + t[..a];
    AllSpaceAppend([s[0]], t[..a]);
    assert s[b + 1..] == t[b..];
    assert a < b ==> s[a + 1] == t[a] && s[b] == t[b - 1];
  }

  lemma CutBack(s: string, a: nat, b: nat)
    requires |s| > 0 && IsSpace(s[|s| - 1]) && TrimCut(s[..|s| - 1], a, b)
    ensures TrimCut(s, a, b)
  {
    var t := s[..|s| - 1];
    assert s[..a] == t[..a];
    assert s[b..] == t[b..] + [s[|s| - 1]];
    AllSpaceAppend(t[b..], [s[|s| - 1]]);
    assert a < b ==> s[a] == t[a] && s[b - 1] == t[b - 1];
  }

  lemma {:induction false} CutExists(s: string) returns (a: nat, b: nat)
    ensures TrimCut(s, a, b)
    decreases |s|
  {
    if |s| > 0 && IsSpace(s[0]) {
      var a', b' := CutExists(s[1..]);
      CutFront(s, a', b');
      a, b := a' + 1, b' + 1;
    } else if |s| > 0 && IsSpace(s[|s| - 1]) {
      a, b := CutExists(s[..|s| - 1]);
      CutBack(s, a, b);
    } else {
      a, b := 0, |s|;
      assert s[..0] == [] && s[|s|..] == [];
    }
  }

  /** What `trim` keeps is the slice between the whitespace it removes. */
  lemma TrimSlice(s: string) returns (a: nat, b: nat)
    ensures a <= b <= |s| && Trim(s) == s[a..b]
    ensures AllSpace(s[..a]) && AllSpace(s[b..])
    ensures a < b ==> !IsSpace(s[a]) && !IsSpace(s[b - 1])
  {
    a, b := CutExists(s);
    TrimUnique(s, a, b);
  }

  lemma CutDropFront(s: string, a: nat, b: nat)
    requires TrimCut(s, a, b) && 0 < a < b
    ensures IsSpace(s[0]) && TrimCut(s[1..], a - 1, b - 1) && s[1..][a - 1..b - 1] == s[a..b]
  {
    var t := s[1..];
    assert s[..a][0] == s[0];
    AllSpaceSlice(s[..a], 1, a);
    assert t[..a - 1] == s[..a][1..a];
    assert t[b - 1..] == s[b..];
    assert t[a - 1] == s[a] && t[b - 2] == s[b - 1];
  }

  lemma CutDropBack(s: string, b: nat)
    requires TrimCut(s, 0, b) && 0 < b < |s|
    ensures !IsSpace(s[0]) && IsSpace(s[|s| - 1]) && TrimCut(s[..|s| - 1], 0, b) && s[..|s| - 1][0..b] == s[0..b]
  {
    var t := s[..|s| - 1];
    assert s[b..][|s| - 1 - b] == s[|s| - 1];
    AllSpaceSlice(s[b..], 0, |s| - 1 - b);
    assert t[b..] == s[b..][0..|s| - 1 - b];
    assert t[..0] == s[..0];
    assert t[0] == s[0] && t[b - 1] == s[b - 1];
  }

  /** `trim` is determined by its cut points: any slice with only whitespace
      around it and none at its ends is the trimmed string. */
  lemma {:induction false} TrimUnique(s: string, a: nat, b: nat)
    requires a <= b <= |s|
    requires AllSpace(s[..a]) && AllSpace(s[b..])
    requires a < b ==> !IsSpace(s[a]) && !IsSpace(s[b - 1])
    ensures Trim(s) == s[a..b]
    decreases |s|, 1
  {
    if a == b {
      assert s == s[..a] + s[b..];
      AllSpaceAppend(s[..a], s[b..]);
    } else if a > 0 {
      TrimUniqueFront(s, a, b);
    } else if b < |s| {
      TrimUniqueBack(s, b);
    } else {
      assert s[0..|s|] == s;
    }
  }

  lemma {:induction false} TrimUniqueFront(s: string, a: nat, b: nat)
    requires TrimCut(s, a, b) && 0 < a < b
    ensures Trim(s) == s[a..b]
    decreases |s|, 0
  {
    CutDropFront(s, a, b);
    var t := s[1..];
    assert Trim(s) == Trim(t);
    TrimUnique(t, a - 1, b - 1);
  }

  lemma {:induction false} TrimUniqueBack(s: string, b: nat)
    requires TrimCut(s, 0, b) && 0 < b < |s|
    ensures Trim(s) == s[0..b]
    decreases |s|, 0
  {
    CutDropBack(s, b);
    var t := s[..|s| - 1];
    assert Trim(s) == Trim(t);
    TrimUnique(t, 0, b);
  }

  /** Whitespace before a string does not change its trim. */
  lemma {:induction false} TrimSpacePrefix(p: string, x: string)
    requires AllSpace(p)
    ensures Trim(p + x) == Trim(x)
    decreases |p|
  {
    if |p| > 0 {
      assert (p + x)[0] == p[0];
      assert (p + x)[1..] == p[1..] + x;
      AllSpaceSlice(p, 1, |p|);
      TrimSpacePrefix(p[1..], x);
    } else {
      assert p + x == x;
    }
  }

  /** Whitespace after a string does not change its trim. */
  lemma {:induction false} TrimSpaceSuffix(x: string, p: string)
    requires AllSpace(p)
    ensures Trim(x + p) == Trim(x)
    decreases |x| + |p|
  {
    var s := x + p;
    if |x| > 0 && IsSpace(x[0]) {
      assert s[0] == x[0];
      assert s[1..] == x[1..] + p;
      TrimSpaceSuffix(x[1..], p);
    } else if |x| == 0 {
      assert s == p;
    } else if |p| > 0 {
      assert s[0] == x[0];
      assert s[|s| - 1] == p[|p| - 1];
      assert s[..|s| - 1] == x + p[..|p| - 1];
      AllSpaceSlice(p, 0, |p| - 1);
      TrimSpaceSuffix(x, p[..|p| - 1]);
    } else {
      assert s == x;
    }
  }

  /** Trimming `pre + TrimStart(after)` where `pre` is blank and `after` is
      `mid` followed by blanks gives `Trim(mid)`. */
  lemma DropSpaceAround(pre: string, after: string, mid: string, post: string)
    requires AllSpace(pre) && AllSpace(post) && after == mid + post
    ensures Trim(pre + after[LeadingSpace(after)..]) == Trim(mid)
  {
    TrimSpacePrefix(pre, after[LeadingSpace(after)..]);
    TrimAfterTrimStart(after);
    TrimSpaceSuffix(mid, post);
  }

  /** Trimming after dropping the leading whitespace is trimming. */
  lemma TrimAfterTrimStart(s: string)
    ensures Trim(s[LeadingSpace(s)..]) == Trim(s)
  {
    var c := LeadingSpace(s);
    assert s == s[..c] + s[c..];
    TrimSpacePrefix(s[..c], s[c..]);
  }

  /** Trimming twice is trimming once. */
  lemma TrimIdempotent(s: string)
    ensures Trim(Trim(s)) == Trim(s)
  {
    var t := Trim(s);
    TrimUnique(t, 0, |t|);
  }

  /** Where a prefix of the trimmed string sits in the original. */
  lemma TrimmedPrefixSlice(s: string, p: string) returns (a: nat, b: nat)
    requires StartsWith(Trim(s), p)
    ensures a + |p| <= b <= |s| && s[a..a + |p|] == p
    ensures Trim(s) == s[a..b] && AllSpace(s[..a]) && AllSpace(s[b..])
  {
    a, b := TrimSlice(s);
    assert s[a..b][..|p|] == s[a..a + |p|];
  }

  /** `s` has the prefix `p` (`startsWith`). */
  predicate StartsWith(s: string, p: string) {
    |p| <= |s| && s[..|p|] == p
  }

  /** `p` occurs in `s` at position `k`. */
  predicate OccursAt(s: string, p: string, k: int) {
    0 <= k && k + |p| <= |s| && s[k..k + |p|] == p
  }

  /** `indexOf`: the first position at which `p` occurs in `s`. */
  function IndexOf(s: string, p: string): (r: Option<nat>)
    ensures r.Some? ==> OccursAt(s, p, r.value)
    ensures r.Some? ==> forall k | 0 <= k < r.value :: !OccursAt(s, p, k)
    ensures r.None? ==> forall k | 0 <= k :: !OccursAt(s, p, k)
  {
    IndexFrom(s, p, 0)
  }

  /** The first position from `i` on at which `p` occurs in `s`. */
  function IndexFrom(s: string, p: string, i: nat): (r: Option<nat>)
    ensures r.Some? ==> i <= r.value && OccursAt(s, p, r.value)
    ensures r.Some? ==> forall k | i <= k < r.value :: !OccursAt(s, p, k)
    ensures r.None? ==> forall k | i <= k :: !OccursAt(s, p, k)
    decreases |s| - i
  {
    if i + |p| > |s| then None
    else if OccursAt(s, p, i) then Some(i)
    else IndexFrom(s, p, i + 1)
  }

  /** `includes`. */
  predicate Contains(s: string, p: string) {
    IndexOf(s, p).Some?
  }

  lemma ContainsWhenOccurs(s: string, p: string, k: int)
    requires OccursAt(s, p, k)
    ensures Contains(s, p)
  {
  }

  /** A pattern that does not start with whitespace first occurs where it
      occurs after a run of whitespace. */
  lemma FirstAfterSpace(s: string, p: string, a: nat)
    requires OccursAt(s, p, a) && AllSpace(s[..a]) && |p| > 0 && !IsSpace(p[0])
    ensures IndexOf(s, p) == Some(a)
  {
    var k := IndexOf(s, p).value;
    assert forall j | 0 <= j < a :: s[j] == s[..a][j];
  }

  /** The first position of character `c` in `s`. */
  function FirstIndex(s: string, c: char): (k: nat)
    requires c in s
    ensures k < |s| && s[k] == c && c !in s[..k]
  {
    if s[0] == c then 0
    else
      var j := FirstIndex(s[1..], c);
      assert s[..j + 1] == [s[0]] + s[1..][..j];
      j + 1
  }

  /** `Array.prototype.join(sep)`. */
  function Join(parts: seq<string>, sep: string): string
  {
    if |parts| == 0 then ""
    else if |parts| == 1 then parts[0]
    else parts[0] + sep + Join(parts[1..], sep)
  }

  /** `String.prototype.split` on a one-character separator: the pieces
      between separators, empty pieces kept, never fewer than one piece. */
  function Split(s: string, sep: char): (parts: seq<string>)
    ensures |parts| >= 1
    ensures forall k | 0 <= k < |parts| :: sep !in parts[k]
    ensures Join(parts, [sep]) == s
    decreases |s|
  {
    if sep !in s then [s]
    else
      var k := FirstIndex(s, sep);
      var rest := Split(s[k + 1..], sep);
      assert s == s[..k] + [sep] + s[k + 1..];
      [s[..k]] + rest
  }

  /** Split undoes Join when no piece holds the separator. */
  lemma {:induction false} SplitJoin(parts: seq<string>, sep: char)
    requires |parts| >= 1
    requires forall k | 0 <= k < |parts| :: sep !in parts[k]
    ensures Split(Join(parts, [sep]), sep) == parts
    decreases |parts|
  {
    if |parts| == 1 {
    } else {
      var s := Join(parts, [sep]);
      var tail := Join(parts[1..], [sep]);
      assert s == parts[0] + [sep] + tail;
      assert sep in s by { assert s[|parts[0]|] == sep; }
      var k := FirstIndex(s, sep);
      assert k == |parts[0]| by {
        assert forall j | 0 <= j < |parts[0]| :: s[j] == parts[0][j];
      }
      assert s[..k] == parts[0];
      assert s[k + 1..] == tail;
      SplitJoin(parts[1..], sep);
    }
  }
}

=== FILE: output_props.dfy ===
/** Properties of the output stage: the ai filter and the collapsing of
    adjacent repeats. */
module OutputProps {
  import opened Wrappers
  import opened JsText
  import opened Transcript

  /** Index `j` starts a run of messages with equal trimmed content. */
  predicate RunHead(ms: seq<Message>, j: int) {
    0 <= j < |ms| && (j == 0 || Trim(ms[j - 1].content) != Trim(ms[j].content))
  }

  /** The first message of every run from index `j` on, in order. */
  function HeadsFrom(ms: seq<Message>, j: nat): seq<Message>
    requires j <= |ms|
    decreases |ms| - j
  {
    if j == |ms| then [] else (if RunHead(ms, j) then [ms[j]] else []) + HeadsFrom(ms, j + 1)
  }

  /** Reference definition of the dedup: keep exactly the run heads. */
  function RunHeads(ms: seq<Message>): seq<Message> {
    HeadsFrom(ms, 0)
  }

  lemma {:induction false} DedupIntoHeads(ms: seq<Message>, j: nat, kept: seq<Message>)
    requires 0 < j <= |ms| && |kept| > 0
    requires Trim(kept[|kept| - 1].content) == Trim(ms[j - 1].content)
    ensures DedupInto(kept, ms[j..]) == kept + HeadsFrom(ms, j)
    decreases |ms| - j
  {
    if j < |ms| {
      var rest := ms[j..];
      assert rest[0] == ms[j];
      assert rest[1..] == ms[j + 1..];
      if RunHead(ms, j) {
        assert DedupInto(kept, rest) == DedupInto(kept + [ms[j]], ms[j + 1..]);
        DedupIntoHeads(ms, j + 1, kept + [ms[j]]);
        assert HeadsFrom(ms, j) == [ms[j]] + HeadsFrom(ms, j + 1);
      } else {
        assert DedupInto(kept, rest) == DedupInto(kept, ms[j + 1..]);
        DedupIntoHeads(ms, j + 1, kept);
        assert HeadsFrom(ms, j) == HeadsFrom(ms, j + 1);
      }
    } else {
      assert ms[j..] == [];
    }
  }

  /** The dedup loop keeps exactly the first message of each run of equal
      trimmed contents, in order. */
  lemma DedupIsRunHeads(ms: seq<Message>)
    ensures Dedup(ms) == RunHeads(ms)
  {
    if |ms| > 0 {
      assert RunHead(ms, 0);
      assert [] + [ms[0]] == [ms[0]];
      assert Dedup(ms) == DedupInto([ms[0]], ms[1..]);
      DedupIntoHeads(ms, 1, [ms[0]]);
      assert RunHeads(ms) == [ms[0]] + HeadsFrom(ms, 1);
    }
  }

  lemma {:induction false} DedupIntoNoRepeats(kept: seq<Message>, rest: seq<Message>)
    requires NoAdjacentRepeats(kept)
    ensures NoAdjacentRepeats(DedupInto(kept, rest))
    decreases |rest|
  {
    if |rest| > 0 {
      if |kept| == 0 || Trim(kept[|kept| - 1].content) != Trim(rest[0].content) {
        PushNoRepeats(kept, rest[0]);
        DedupIntoNoRepeats(kept + [rest[0]], rest[1..]);
      } else {
        DedupIntoNoRepeats(kept, rest[1..]);
      }
    }
  }

  lemma PushNoRepeats(kept: seq<Message>, m: Message)
    requires NoAdjacentRepeats(kept)
    requires |kept| == 0 || Trim(kept[|kept| - 1].content) != Trim(m.content)
    ensures NoAdjacentRepeats(kept + [m])
  {
    var r := kept + [m];
    forall k | 0 < k < |r|
      ensures Trim(r[k - 1].content) != Trim(r[k].content)
    {
      if k < |kept| {
        assert r[k - 1] == kept[k - 1] && r[k] == kept[k];
      }
    }
  }

  /** After the dedup no two neighbours have equal trimmed content. */
  lemma DedupNoRepeats(ms: seq<Message>)
    ensures NoAdjacentRepeats(Dedup(ms))
  {
    DedupIntoNoRepeats([], ms);
  }

  lemma {:induction false} HeadsFromSubset(ms: seq<Message>, j: nat)
    requires j <= |ms|
    ensures forall m | m in HeadsFrom(ms, j) :: m in ms[j..]
    decreases |ms| - j
  {
    if j < |ms| {
      HeadsFromSubset(ms, j + 1);
      assert forall m | m in ms[j + 1..] :: m in ms[j..];
    }
  }

  /** The dedup only drops messages, keeps the first one, and keeps one
      of each run. */
  lemma DedupKeepsFirst(ms: seq<Message>)
    ensures forall m | m in Dedup(ms) :: m in ms
    ensures |ms| > 0 ==> |Dedup(ms)| > 0 && Dedup(ms)[0] == ms[0]
  {
    DedupIsRunHeads(ms);
    HeadsFromSubset(ms, 0);
  }

  /** The filter commutes with concatenation, so it keeps input order. */
  lemma {:induction false} KeepAiAppend(a: seq<Message>, b: seq<Message>)
    ensures KeepAi(a + b) == KeepAi(a) + KeepAi(b)
    decreases |a|
  {
    if |a| > 0 {
      assert (a + b)[1..] == a[1..] + b;
      KeepAiAppend(a[1..], b);
    } else {
      assert a + b == b;
    }
  }
}

=== FILE: parser_spec.dfy ===
/** End-to-end properties of the transcript parser: what the list of
    replies it returns is, in terms of the scanned messages. */
module ParserSpec {
  import opened Wrappers
  import opened JsText
  import opened Transcript
  import ScanProps
  import OutputProps

  /** Every message of the transcript, closed and finalized, before the
      filter and the dedup. */
  function Messages(text: string): seq<Message> {
    FinalizeAll(Scan(Split(Ansi.Strip(text), '\n')))
  }

  /** Reference filter: the ai messages with non-empty content, in order. */
  function AiReplies(ms: seq<Message>): seq<Message>
    decreases |ms|
  {
    if |ms| == 0 then []
    else (if ms[0].role == Ai && ms[0].content != "" then [ms[0]] else []) + AiReplies(ms[1..])
  }

  /** The scan never gives an ai message a tool name or a call id, and
      every content is already trimmed. */
  lemma MessagesFit(text: string)
    ensures forall k | 0 <= k < |Messages(text)| ::
      Messages(text)[k].role == Ai ==> Messages(text)[k].toolName.None? && Messages(text)[k].toolCallId.None?
    ensures forall k | 0 <= k < |Messages(text)| :: Trim(Messages(text)[k].content) == Messages(text)[k].content
  {
    var lines := Split(Ansi.Strip(text), '\n');
    var ds := Scan(lines);
    var ms := Messages(text);
    ScanProps.ScanFits(lines);
    forall k | 0 <= k < |ms|
      ensures ms[k].role == Ai ==> ms[k].toolName.None? && ms[k].toolCallId.None?
      ensures Trim(ms[k].content) == ms[k].content
    {
      assert ds[k] in ds;
      TrimIdempotent(Join(ds[k].lines, "\n"));
    }
  }

  /** When no ai message carries a tool name, the parser's filter
      (`type === 'ai' && (content || toolName)`) keeps exactly the ai
      messages with content. */
  lemma {:induction false} KeepAiIsAiReplies(ms: seq<Message>)
    requires forall k | 0 <= k < |ms| :: ms[k].role == Ai ==> ms[k].toolName.None?
    ensures KeepAi(ms) == AiReplies(ms)
    decreases |ms|
  {
    if |ms| > 0 {
      assert forall k | 0 <= k < |ms[1..]| :: ms[1..][k] == ms[k + 1];
      KeepAiIsAiReplies(ms[1..]);
    }
  }

  /** The parser returns nothing for blank input, and otherwise the first
      message of every run of equal ai replies. */
  lemma ParseIsRunHeadsOfReplies(text: string)
    ensures AllSpace(text) ==> Parse(text) == []
    ensures !AllSpace(text) ==> Parse(text) == OutputProps.RunHeads(AiReplies(Messages(text)))
  {
    if !AllSpace(text) {
      MessagesFit(text);
      KeepAiIsAiReplies(Messages(text));
      OutputProps.DedupIsRunHeads(AiReplies(Messages(text)));
    }
  }

  /** Every reply the parser returns is an ai message of the transcript
      with non-empty, trimmed content and no tool fields; no two neighbours
      repeat; and the first ai reply always survives. */
  lemma ParseShape(text: string)
    ensures forall m | m in Parse(text) ::
      m in Messages(text) && m.role == Ai && m.content != "" && Trim(m.content) == m.content
      && m.toolName.None? && m.toolCallId.None?
    ensures NoAdjacentRepeats(Parse(text))
    ensures !AllSpace(text) && |AiReplies(Messages(text))| > 0 ==>
      |Parse(text)| > 0 && Parse(text)[0] == AiReplies(Messages(text))[0]
  {
    if !AllSpace(text) {
      var ms := Messages(text);
      MessagesFit(text);
      KeepAiIsAiReplies(ms);
      OutputProps.DedupKeepsFirst(KeepAi(ms));
      OutputProps.DedupNoRepeats(KeepAi(ms));
      forall m | m in Parse(text)
        ensures m in ms && Trim(m.content) == m.content
      {
        assert m in KeepAi(ms);
        var k :| 0 <= k < |ms| && ms[k] == m;
      }
    }
  }

  /** A transcript without any boundary line yields no reply. */
  lemma NoBoundaryNoReply(text: string)
    requires forall line | line in Split(Ansi.Strip(text), '\n') :: BoundaryRole(line).None?
    ensures Parse(text) == []
  {
    var lines := Split(Ansi.Strip(text), '\n');
    assert forall k | 0 <= k < |lines| :: lines[k] in lines;
    ScanProps.NoBoundaryNoMessage(lines);
  }
}

=== FILE: patterns.dfy ===
/** The regular expressions of the transcript parser, each written out as a
    function over strings that follows JavaScript's leftmost, greedy,
    backtracking match. */
module Patterns {
  import opened Wrappers
  import opened JsText

  /** Thirty `=` characters: `={30,}` matches wherever this occurs. */
  const EqualsRun: string := "=============================="

  /** `/={30,}/`: the line holds a run of thirty or more `=`. */
  predicate HasEqualsRun(line: string) {
    Contains(line, EqualsRun)
  }

  /** `/^={30,}$/`: the line is nothing but thirty or more `=`. */
  predicate IsSeparatorLine(line: string) {
    |line| >= 30 && forall k | 0 <= k < |line| :: line[k] == '='
  }

  lemma SeparatorHasEqualsRun(line: string)
    requires IsSeparatorLine(line)
    ensures HasEqualsRun(line)
  {
    assert line[..30] == EqualsRun;
    ContainsWhenOccurs(line, EqualsRun, 0);
  }

  predicate NoLineTerminator(s: string) {
    forall k | 0 <= k < |s| :: !IsLineTerminator(s[k])
  }

  /** `/={30,}.*M.*={30,}/` for a marker `M`: an `=` run, the marker and
      another `=` run, with no line terminator in between. */
  predicate Framed(line: string, marker: string) {
    exists a, b, c | 0 <= a <= b <= c <= |line| ::
      && OccursAt(line, EqualsRun, a)
      && OccursAt(line, marker, b)
      && OccursAt(line, EqualsRun, c)
      && a + 30 <= b && b + |marker| <= c
      && NoLineTerminator(line[a + 30..b])
      && NoLineTerminator(line[b + |marker|..c])
  }

  /** The framed form of a boundary marker adds nothing to a plain
      `includes` test. */
  lemma FramedIsContained(line: string, marker: string)
    requires Framed(line, marker)
    ensures Contains(line, marker)
  {
    var a, b, c :| 0 <= a <= b <= c <= |line| && OccursAt(line, marker, b);
    ContainsWhenOccurs(line, marker, b);
  }

  /** Length of the `call_[a-zA-Z0-9]+` match at the start of `s`, if any
      (`+` is greedy and nothing follows it, so it takes every alphanumeric). */
  function CallIdAt(s: string): (r: Option<nat>)
    ensures r.Some? ==> 6 <= r.value <= |s| && StartsWith(s, "call_")
    ensures r.Some? ==> forall k | 5 <= k < r.value :: IsAlnum(s[k])
    ensures r.Some? ==> r.value == |s| || !IsAlnum(s[r.value])
    ensures r.None? ==> !StartsWith(s, "call_") || |s| == 5 || !IsAlnum(s[5])
  {
    if StartsWith(s, "call_") && |s| > 5 && IsAlnum(s[5]) then
      var n := Span(s[5..], IsAlnum);
      assert forall k | 5 <= k < 5 + n :: s[k] == s[5..][k - 5];
      Some(5 + n)
    else None
  }

  /** The call id `s` starts with, if any. */
  function CallIdPrefix(s: string): Option<string> {
    match CallIdAt(s)
    case None => None
    case Some(n) => Some(s[..n])
  }

  /** `line.match(/call_[a-zA-Z0-9]+/)`: the leftmost call id, if any,
      with the whole greedy run of alphanumerics after `call_`. */
  function FirstCallId(line: string): (r: Option<string>)
    ensures r.Some? ==> StartsWith(r.value, "call_") && |r.value| > 5
    ensures r.Some? ==> forall k | 5 <= k < |r.value| :: IsAlnum(r.value[k])
    ensures r.Some? ==> Contains(line, r.value)
    ensures r.Some? ==> exists p | 0 <= p < |line| ::
      && CallIdPrefix(line[p..]) == r
      && forall q | 0 <= q < p :: CallIdAt(line[q..]).None?
    ensures r.None? ==> forall k | 0 <= k < |line| :: CallIdAt(line[k..]).None?
  {
    var r := FirstMatch(line, CallIdPrefix);
    if r.Some? then FoundCallId(line); r
    else
      assert forall k | 0 <= k < |line| :: CallIdPrefix(line[k..]).None?;
      r
  }

  /** A call id found by the search is a well-formed id occurring in the
      line, and it is the match at the first position that has one. */
  lemma FoundCallId(line: string)
    requires FirstMatch(line, CallIdPrefix).Some?
    ensures var id := FirstMatch(line, CallIdPrefix).value;
      && StartsWith(id, "call_") && |id| > 5
      && (forall k | 5 <= k < |id| :: IsAlnum(id[k]))
      && Contains(line, id)
    ensures exists p | 0 <= p < |line| ::
      && CallIdPrefix(line[p..]) == FirstMatch(line, CallIdPrefix)
      && forall q | 0 <= q < p :: CallIdAt(line[q..]).None?
  {
    var p := FirstMatchAt(line, CallIdPrefix);
    FoundCallIdAt(line, p);
    CallIdsBefore(line, p);
  }

  lemma FoundCallIdAt(line: string, p: nat)
    requires p < |line| && CallIdPrefix(line[p..]).Some?
    ensures var id := CallIdPrefix(line[p..]).value;
      && StartsWith(id, "call_") && |id| > 5
      && (forall k | 5 <= k < |id| :: IsAlnum(id[k]))
      && Contains(line, id)
  {
    var id := CallIdPrefix(line[p..]).value;
    CallIdPrefixShape(line[p..]);
    assert line[p..p + |id|] == id;
    ContainsWhenOccurs(line, id, p);
  }

  lemma CallIdsBefore(line: string, p: nat)
    requires p <= |line|
    requires forall q | 0 <= q < p :: CallIdPrefix(line[q..]).None?
    ensures forall q | 0 <= q < p :: CallIdAt(line[q..]).None?
  {
  }

  lemma CallIdPrefixShape(s: string)
    requires CallIdPrefix(s).Some?
    ensures var id := CallIdPrefix(s).value;
      && StartsWith(id, "call_") && |id| > 5 && |id| <= |s| && s[..|id|] == id
      && forall k | 5 <= k < |id| :: IsAlnum(id[k])
  {
  }

  /** A line with a call id always contains `call_`. */
  lemma CallIdNeedsPrefix(line: string)
    requires FirstCallId(line).Some?
    ensures Contains(line, "call_")
  {
    var id := FirstCallId(line).value;
    var j := IndexOf(line, id).value;
    assert line[j..j + 5] == id[..5];
    ContainsWhenOccurs(line, "call_", j);
  }

  predicate NotCloseParen(c: char) {
    c != ')'
  }

  /** `/\s+(\w+)\s+\(([^)]+)\)/` tried at the start of `s`; the tool name of
      group 1 when it matches.  Each quantifier is followed by a character
      outside its class, so backtracking never yields another match. */
  function ToolCallAt(s: string): (r: Option<string>)
    ensures r.Some? ==> |r.value| > 0 && forall k | 0 <= k < |r.value| :: IsWordChar(r.value[k])
  {
    var a := SpanFrom(s, 0, IsSpace);
    var b := SpanFrom(s, a, IsWordChar);
    var d := SpanFrom(s, b, IsSpace);
    if a == 0 || b == a || d == b || d >= |s| || s[d] != '(' then None
    else
      var e := SpanFrom(s, d + 1, NotCloseParen);
      if e == d + 1 || e >= |s| then None
      else Some(s[a..b])
  }

  /** `\s+(\w+)\s+\(([^)]+)\)` matches at the start of `s` with `name` as
      group 1, for some choice of where each quantifier stops: spaces up to
      `a`, the name up to `b`, spaces up to `d`, `(` at `d`, other
      characters up to `e` and `)` at `e`. */
  ghost predicate ToolCallMatch(s: string, name: string) {
    exists a, b, d, e | 0 < a < b < d && d + 1 < e < |s| :: ToolCallSplit(s, name, a, b, d, e)
  }

  predicate ToolCallSplit(s: string, name: string, a: nat, b: nat, d: nat, e: nat)
    requires 0 < a < b < d && d + 1 < e < |s|
  {
    && (forall k | 0 <= k < a :: IsSpace(s[k]))
    && s[a..b] == name && (forall k | a <= k < b :: IsWordChar(s[k]))
    && (forall k | b <= k < d :: IsSpace(s[k]))
    && s[d] == '('
    && (forall k | d < k < e :: s[k] != ')')
    && s[e] == ')'
  }

  /** The computed tool name is group 1 of the regex and nothing else: the
      classes around each quantifier are disjoint, so there is only one
      way to split a match. */
  lemma ToolCallAtMeaning(s: string, name: string)
    ensures ToolCallAt(s) == Some(name) <==> ToolCallMatch(s, name)
  {
    if ToolCallAt(s) == Some(name) {
      ToolCallAtSound(s);
    }
    if ToolCallMatch(s, name) {
      var a, b, d, e :| 0 < a < b < d && d + 1 < e < |s| && ToolCallSplit(s, name, a, b, d, e);
      ToolCallAtComplete(s, name, a, b, d, e);
    }
  }

  lemma ToolCallAtSound(s: string)
    requires ToolCallAt(s).Some?
    ensures ToolCallMatch(s, ToolCallAt(s).value)
  {
    var a := SpanFrom(s, 0, IsSpace);
    var b := SpanFrom(s, a, IsWordChar);
    var d := SpanFrom(s, b, IsSpace);
    var e := SpanFrom(s, d + 1, NotCloseParen);
    assert ToolCallSplit(s, ToolCallAt(s).value, a, b, d, e);
  }

  lemma ToolCallAtComplete(s: string, name: string, a: nat, b: nat, d: nat, e: nat)
    requires 0 < a < b < d && d + 1 < e < |s| && ToolCallSplit(s, name, a, b, d, e)
    ensures ToolCallAt(s) == Some(name)
  {
    assert !IsSpace(s[a]);
    SpanFromExact(s, 0, IsSpace, a);
    assert !IsWordChar(s[b]) by { assert IsSpace(s[b]); }
    SpanFromExact(s, a, IsWordChar, b);
    SpanFromExact(s, b, IsSpace, d);
    SpanFromExact(s, d + 1, NotCloseParen, e);
  }

  /** The result of `f` at the leftmost position of `s` where it has one:
      how `String.prototype.match` scans for an unanchored regex. */
  function FirstMatch<T>(s: string, f: string -> Option<T>): (r: Option<T>)
    ensures r.None? ==> forall k | 0 <= k < |s| :: f(s[k..]).None?
    decreases |s|
  {
    if |s| == 0 then None
    else if f(s).Some? then f(s)
    else
      assert forall k | 1 <= k < |s| :: s[k..] == s[1..][k - 1..];
      assert s[0..] == s;
      FirstMatch(s[1..], f)
  }

  /** A match found is `f`'s answer at a position `p` where it has one,
      with no answer at any earlier position. */
  lemma {:induction false} FirstMatchAt<T>(s: string, f: string -> Option<T>) returns (p: nat)
    requires FirstMatch(s, f).Some?
    ensures p < |s| && f(s[p..]) == FirstMatch(s, f)
    ensures forall q | 0 <= q < p :: f(s[q..]).None?
    decreases |s|
  {
    assert s[0..] == s;
    if f(s).Some? {
      p := 0;
    } else {
      var tail := s[1..];
      var p' := FirstMatchAt(tail, f);
      p := p' + 1;
      assert s[p..] == tail[p'..];
      forall q | 0 <= q < p
        ensures f(s[q..]).None?
      {
        if q > 0 {
          assert s[q..] == tail[q - 1..];
        }
      }
    }
  }

  /** The tool name of the leftmost match of `/\s+(\w+)\s+\(([^)]+)\)/`. */
  function ToolCallName(line: string): (r: Option<string>)
    ensures r.Some? ==> |r.value| > 0 && forall k | 0 <= k < |r.value| :: IsWordChar(r.value[k])
    ensures r.Some? ==> exists p | 0 <= p < |line| ::
      && ToolCallAt(line[p..]) == r
      && forall q | 0 <= q < p :: ToolCallAt(line[q..]).None?
    ensures r.None? ==> forall k | 0 <= k < |line| :: ToolCallAt(line[k..]).None?
  {
    var r := FirstMatch(line, ToolCallAt);
    if r.Some? then FoundToolCall(line); r else r
  }

  /** A tool name found by the search is group 1 of the match at the first
      position that has one, a non-empty run of word characters. */
  lemma FoundToolCall(line: string)
    requires FirstMatch(line, ToolCallAt).Some?
    ensures var name := FirstMatch(line, ToolCallAt).value;
      |name| > 0 && forall k | 0 <= k < |name| :: IsWordChar(name[k])
    ensures exists p | 0 <= p < |line| ::
      && ToolCallAt(line[p..]) == FirstMatch(line, ToolCallAt)
      && forall q | 0 <= q < p :: ToolCallAt(line[q..]).None?
  {
    var p := FirstMatchAt(line, ToolCallAt);
  }

  /** `/^\s+(\w+):/`: the key and the position just after the colon. */
  function ArgKey(line: string): (r: Option<(string, nat)>)
    ensures r.Some? ==> LeadingSpace(line) > 0
    ensures r.Some? ==> var (key, p) := r.value;
      && |key| > 0 && p == LeadingSpace(line) + |key| + 1 && p <= |line|
      && line[LeadingSpace(line)..p - 1] == key && line[p - 1] == ':'
      && forall k | 0 <= k < |key| :: IsWordChar(key[k])
    ensures r.None? ==>
      || LeadingSpace(line) == 0
      || forall b | LeadingSpace(line) < b < |line| ::
           !((forall k | LeadingSpace(line) <= k < b :: IsWordChar(line[k])) && line[b] == ':')
  {
    var a := LeadingSpace(line);
    var b := SpanFrom(line, a, IsWordChar);
    if a == 0 || b == a || b >= |line| || line[b] != ':' then
      ColonEndsKey(line, a);
      None
    else Some((line[a..b], b + 1))
  }

  /** A colon after a run of word characters is where the run stops. */
  lemma ColonEndsKey(line: string, a: nat)
    requires a <= |line|
    ensures forall b | a < b < |line| && (forall k | a <= k < b :: IsWordChar(line[k])) && line[b] == ':' ::
      b == SpanFrom(line, a, IsWordChar)
  {
    forall b | a < b < |line| && (forall k | a <= k < b :: IsWordChar(line[k])) && line[b] == ':'
      ensures b == SpanFrom(line, a, IsWordChar)
    {
      SpanFromExact(line, a, IsWordChar, b);
    }
  }

  /** `^\s+(\w+):` matches `line` with `key` as group 1: leading
      whitespace up to `a`, the key up to `b` and a colon at `b`. */
  ghost predicate ArgKeyMatch(line: string, key: string) {
    exists a, b | 0 < a < b < |line| ::
      && (forall k | 0 <= k < a :: IsSpace(line[k]))
      && (forall k | a <= k < b :: IsWordChar(line[k]))
      && line[b] == ':' && line[a..b] == key
  }

  /** The computed key is group 1 of the anchored regex and nothing else:
      whitespace, word characters and `:` are disjoint classes, so a match
      splits only one way. */
  lemma ArgKeyMeaning(line: string, key: string)
    ensures (ArgKey(line).Some? && ArgKey(line).value.0 == key) <==> ArgKeyMatch(line, key)
  {
    if ArgKey(line).Some? && ArgKey(line).value.0 == key {
      ArgKeySound(line);
    }
    if ArgKeyMatch(line, key) {
      var a, b :| 0 < a < b < |line|
        && (forall k | 0 <= k < a :: IsSpace(line[k]))
        && (forall k | a <= k < b :: IsWordChar(line[k]))
        && line[b] == ':' && line[a..b] == key;
      ArgKeyComplete(line, a, b);
    }
  }

  lemma ArgKeySound(line: string)
    requires ArgKey(line).Some?
    ensures ArgKeyMatch(line, ArgKey(line).value.0)
  {
    var (key, p) := ArgKey(line).value;
    var a := LeadingSpace(line);
    var b := p - 1;
    assert forall k | 0 <= k < a :: IsSpace(line[..a][k]);
    assert forall k | a <= k < b :: IsWordChar(line[k]) by {
      forall k | a <= k < b ensures IsWordChar(line[k]) {
        assert line[k] == key[k - a];
      }
    }
  }

  lemma ArgKeyComplete(line: string, a: nat, b: nat)
    requires 0 < a < b < |line|
    requires forall k | 0 <= k < a :: IsSpace(line[k])
    requires forall k | a <= k < b :: IsWordChar(line[k])
    requires line[b] == ':'
    ensures ArgKey(line) == Some((line[a..b], b + 1))
  {
    assert !IsSpace(line[a]);
    LeadingSpaceExact(line, a) by {
      assert forall k | 0 <= k < a :: IsSpace(line[..a][k]);
    }
    SpanFromExact(line, a, IsWordChar, b);
  }

  predicate NotLineTerminator(c: char) {
    !IsLineTerminator(c)
  }

  /** `\s*(.+)` on the text after the colon, with backtracking: `\s*` first
      takes `k` characters and gives them back one at a time until `.+` can
      take at least one character. */
  function SpaceThenValue(rest: string, k: nat): (r: Option<string>)
    requires k <= |rest|
    decreases k
  {
    if k < |rest| && !IsLineTerminator(rest[k]) then
      Some(rest[k..k + Span(rest[k..], NotLineTerminator)])
    else if k == 0 then None
    else SpaceThenValue(rest, k - 1)
  }

  /** `line.match(/^\s+(\w+):\s*(.+)/)` as `(group 1, group 2 trimmed)`. */
  function ArgEntry(line: string): Option<(string, string)> {
    match ArgKey(line)
    case None => None
    case Some((key, p)) =>
      var rest := line[p..];
      match SpaceThenValue(rest, LeadingSpace(rest))
      case None => None
      case Some(v) => Some((key, Trim(v)))
  }

  /** The tool name of a `Name:` line: the regex `Name:\s*` replaced once
      by nothing (so the first `Name:` and the whitespace after it go), then
      `trim`. */
  function NameValue(line: string): string {
    match IndexOf(line, "Name:")
    case None => Trim(line)
    case Some(k) =>
      var after := line[k + 5..];
      Trim(line[..k] + after[LeadingSpace(after)..])
  }

  /** On a line whose trimmed text starts with `Name:`, the replace-then-trim
      yields the trimmed text after the label. */
  lemma NameValueMeaning(line: string)
    requires StartsWith(Trim(line), "Name:")
    ensures NameValue(line) == Trim(Trim(line)[5..])
  {
    var a, b := TrimmedPrefixSlice(line, "Name:");
    FirstAfterSpace(line, "Name:", a);
    NameValueAt(line, a, b);
    assert Trim(line)[5..] == line[a + 5..b];
  }

  /** With `Name:` first found at `a` and only whitespace before it and
      after `b`, the value is the trimmed text between the label and `b`. */
  lemma NameValueAt(line: string, a: nat, b: nat)
    requires a + 5 <= b <= |line| && IndexOf(line, "Name:") == Some(a)
    requires AllSpace(line[..a]) && AllSpace(line[b..])
    ensures NameValue(line) == Trim(line[a + 5..b])
  {
    NameValueUnfold(line, a);
    SliceConcat(line, a + 5, b);
    DropSpaceAround(line[..a], line[a + 5..], line[a + 5..b], line[b..]);
  }

  lemma NameValueUnfold(line: string, a: nat)
    requires IndexOf(line, "Name:") == Some(a)
    ensures var after := line[a + 5..]; NameValue(line) == Trim(line[..a] + after[LeadingSpace(after)..])
  {
  }

  lemma {:induction false} SpaceThenValueFindsText(rest: string, k: nat)
    requires k <= |rest|
    ensures SpaceThenValue(rest, k).Some? <==>
      exists j | 0 <= j <= k && j < |rest| :: !IsLineTerminator(rest[j])
    ensures SpaceThenValue(rest, k).Some? && AllSpace(rest) ==> AllSpace(SpaceThenValue(rest, k).value)
    decreases k
  {
    if k < |rest| && !IsLineTerminator(rest[k]) {
      var v := SpaceThenValue(rest, k).value;
      assert forall i | 0 <= i < |v| :: v[i] == rest[k + i];
    } else if k > 0 {
      SpaceThenValueFindsText(rest, k - 1);
    }
  }

  /** The value an argument line yields: when the text after the colon holds
      anything but whitespace, the trimmed text from its first non-blank
      character up to the next line terminator; when it is all whitespace,
      the empty string, and only if some character of it is not a line
      terminator (otherwise `.+` finds nothing and the line sets no key). */
  lemma ArgEntryMeaning(line: string)
    requires ArgKey(line).Some?
    ensures var (key, p) := ArgKey(line).value;
            var rest := line[p..];
            var text := TrimStart(rest);
            && (!AllSpace(rest) ==>
                  ArgEntry(line) == Some((key, Trim(text[..Span(text, NotLineTerminator)]))))
            && (AllSpace(rest) ==>
                  && (ArgEntry(line).Some? <==> exists j | 0 <= j < |rest| :: !IsLineTerminator(rest[j]))
                  && (ArgEntry(line).Some? ==> ArgEntry(line) == Some((key, ""))))
  {
    var (key, p) := ArgKey(line).value;
    var rest := line[p..];
    if !AllSpace(rest) {
      ValueAfterSpace(rest);
    } else {
      ValueOfBlank(rest);
    }
  }

  /** After some whitespace, `.+` takes the text up to the next line
      terminator. */
  lemma ValueAfterSpace(rest: string)
    requires !AllSpace(rest)
    ensures var text := TrimStart(rest);
      SpaceThenValue(rest, LeadingSpace(rest)) == Some(text[..Span(text, NotLineTerminator)])
  {
    var k := LeadingSpace(rest);
    assert k < |rest|;
    assert !IsLineTerminator(rest[k]);
    var text := TrimStart(rest);
    var n := Span(text, NotLineTerminator);
    assert rest[k..k + n] == text[..n];
  }

  /** On blank text `.+` can only take whitespace, and it finds something
      exactly when some character is not a line terminator. */
  lemma ValueOfBlank(rest: string)
    requires AllSpace(rest)
    ensures SpaceThenValue(rest, LeadingSpace(rest)).Some? <==> exists j | 0 <= j < |rest| :: !IsLineTerminator(rest[j])
    ensures SpaceThenValue(rest, LeadingSpace(rest)).Some? ==> AllSpace(SpaceThenValue(rest, LeadingSpace(rest)).value)
  {
    LeadingSpaceExact(rest, |rest|) by { assert rest[..|rest|] == rest; }
    SpaceThenValueFindsText(rest, LeadingSpace(rest));
  }
}

=== FILE: scan_props.dfy ===
/** Properties of the line scan: what a message's lines can hold, which
    fields each role carries, and how boundary lines are classified. */
module ScanProps {
  import opened Wrappers
  import opened JsText
  import opened Patterns
  import opened Transcript

  /** The fields a message of each role can carry: only tool messages have
      a tool name or a call id, and human messages have no argument map. */
  predicate FieldsFit(d: Draft) {
    && (d.toolName.Some? <==> d.role == Tool)
    && (d.toolCallId.Some? <==> d.role == Tool)
    && (d.role == Human ==> d.toolArgs.None?)
    && (d.role == Tool ==> d.toolArgs.Some?)
  }

  /** What a message's gathered lines can be: input lines that are not
      separator lines, plus the `Tool Calls:` header in ai messages; human
      and tool messages hold no boundary line and tool messages no field
      line. */
  ghost predicate LinesFit(lines: seq<string>, d: Draft) {
    && (forall l | l in d.lines :: !IsSeparatorLine(l))
    && (forall l | l in d.lines :: l in lines || (d.role == Ai && l == ToolCallsHeader))
    && (d.role != Ai ==> forall l | l in d.lines :: BoundaryRole(l).None?)
    && (d.role == Tool ==> forall l | l in d.lines :: ToolField(l).None?)
  }

  ghost predicate DraftFits(lines: seq<string>, d: Draft) {
    FieldsFit(d) && LinesFit(lines, d)
  }

  /** A classified line a message of role `role` may keep. */
  predicate Keepable(x: LineInfo, role: Role) {
    && !x.separator
    && (role != Ai ==> x.boundary.None?)
    && (role == Tool ==> x.field.None?)
  }

  /** `LinesFit` stated on the classified lines. */
  ghost predicate KeptFrom(infos: seq<LineInfo>, d: Draft) {
    forall l | l in d.lines ::
      (d.role == Ai && l == ToolCallsHeader) ||
      exists k | 0 <= k < |infos| :: infos[k].text == l && Keepable(infos[k], d.role)
  }

  ghost predicate OpenFits(infos: seq<LineInfo>, current: Option<Draft>) {
    current.Some? ==> FieldsFit(current.value) && KeptFrom(infos, current.value)
  }

  /** A separator line always holds a run of 30 `=`. */
  predicate Coherent(infos: seq<LineInfo>) {
    forall k | 0 <= k < |infos| :: infos[k].separator ==> infos[k].equalsRun
  }

  lemma ClassifyAllCoherent(lines: seq<string>)
    ensures Coherent(ClassifyAll(lines))
  {
    var infos := ClassifyAll(lines);
    forall k | 0 <= k < |infos| && infos[k].separator
      ensures infos[k].equalsRun
    {
      SeparatorHasEqualsRun(lines[k]);
    }
  }

  lemma FreshFits(infos: seq<LineInfo>, role: Role)
    ensures OpenFits(infos, Some(Fresh(role)))
  {
  }

  /** A line inside a `Tool Calls:` window is an input line and not a
      separator line. */
  lemma WindowLinesFit(infos: seq<LineInfo>, i: nat)
    requires i < |infos| && Coherent(infos)
    ensures var ws := infos[i + 1..WindowEnd(infos, i, i + 1)];
      forall l | l in TakenLines(ws) :: exists k | 0 <= k < |infos| :: infos[k].text == l && !infos[k].separator
  {
    var e := WindowEnd(infos, i, i + 1);
    var ws := infos[i + 1..e];
    forall l | l in TakenLines(ws)
      ensures exists k | 0 <= k < |infos| :: infos[k].text == l && !infos[k].separator
    {
      var k :| 0 <= k < |ws| && ws[k].taken && ws[k].text == l;
      assert infos[i + 1 + k] == ws[k];
    }
  }

  /** One step of the scan keeps every open and closed message fitting. */
  lemma ConsumeFits(infos: seq<LineInfo>, i: nat, current: Option<Draft>)
    requires i < |infos| && Coherent(infos) && OpenFits(infos, current)
    ensures var s := Consume(infos, i, current);
      OpenFits(infos, s.emitted) && OpenFits(infos, s.current)
  {
    var x := infos[i];
    var s := Consume(infos, i, current);
    if x.boundary.Some? {
      FreshFits(infos, x.boundary.value);
    } else if current.Some? && current.value.role == Tool && x.field.Some? {
      var d := current.value;
      assert s.current.value.lines == d.lines;
    } else if current.Some? && current.value.role == Ai && x.toolCalls {
      WindowLinesFit(infos, i);
      var d := current.value;
      var ws := infos[i + 1..WindowEnd(infos, i, i + 1)];
      assert s.current.value.lines == d.lines + [ToolCallsHeader] + TakenLines(ws);
      assert forall l | l in s.current.value.lines :: l in d.lines || l == ToolCallsHeader || l in TakenLines(ws);
    } else if x.separator {
    } else if current.Some? {
      var d := current.value;
      assert s.current.value.lines == d.lines + [x.text];
      assert infos[i].text == x.text;
    }
  }

  /** Every message the scan closes fits. */
  lemma {:induction false} ScanFromFits(infos: seq<LineInfo>, i: nat, current: Option<Draft>)
    requires i <= |infos| && Coherent(infos) && OpenFits(infos, current)
    ensures forall d | d in ScanFrom(infos, i, current) :: OpenFits(infos, Some(d))
    decreases |infos| - i
  {
    if i < |infos| {
      var s := Consume(infos, i, current);
      ConsumeFits(infos, i, current);
      ScanFromFits(infos, s.next, s.current);
    }
  }

  /** Every message of the transcript fits. */
  lemma ScanFits(lines: seq<string>)
    ensures forall d | d in Scan(lines) :: DraftFits(lines, d)
  {
    var infos := ClassifyAll(lines);
    ClassifyAllCoherent(lines);
    ScanFromFits(infos, 0, None);
    forall d | d in Scan(lines)
      ensures LinesFit(lines, d)
    {
      forall l | l in d.lines && !(d.role == Ai && l == ToolCallsHeader)
        ensures l in lines && !IsSeparatorLine(l)
        ensures d.role != Ai ==> BoundaryRole(l).None?
        ensures d.role == Tool ==> ToolField(l).None?
      {
        var k :| 0 <= k < |infos| && infos[k].text == l && Keepable(infos[k], d.role);
        assert infos[k] == Classify(lines[k]);
      }
      assert !IsSeparatorLine(ToolCallsHeader);
    }
  }

  /** Boundary lines are told apart in a fixed order: a line naming the
      human marker opens a human message whatever else it names, then the
      ai marker wins over the tool marker; the framed `=` form changes
      nothing. */
  lemma BoundaryPriority(line: string)
    ensures BoundaryRole(line) == Some(Human) <==> Contains(line, HumanMarker)
    ensures BoundaryRole(line) == Some(Ai) <==> !Contains(line, HumanMarker) && Contains(line, AiMarker)
    ensures BoundaryRole(line) == Some(Tool) <==>
      !Contains(line, HumanMarker) && !Contains(line, AiMarker) && Contains(line, ToolMarker)
    ensures BoundaryRole(line).None? <==>
      !Contains(line, HumanMarker) && !Contains(line, AiMarker) && !Contains(line, ToolMarker)
  {
    if Framed(line, HumanMarker) { FramedIsContained(line, HumanMarker); }
    if Framed(line, AiMarker) { FramedIsContained(line, AiMarker); }
    if Framed(line, ToolMarker) { FramedIsContained(line, ToolMarker); }
  }

  /** At a boundary line the open message is closed unchanged and a new,
      empty message of the line's role is opened from scratch: nothing of
      the previous message carries over, a tool message starts with an
      empty tool name, call id and argument object, and the boundary line
      itself goes into no message. */
  lemma BoundaryClosesAndOpens(infos: seq<LineInfo>, i: nat, current: Option<Draft>)
    requires i < |infos| && infos[i].boundary.Some?
    ensures var s := Consume(infos, i, current);
      var role := infos[i].boundary.value;
      && s.emitted == current && s.next == i + 1
      && s.current.Some? && s.current.value.role == role
      && s.current.value.lines == []
      && s.current.value.toolName == (if role == Tool then Some("") else None)
      && s.current.value.toolCallId == (if role == Tool then Some("") else None)
      && s.current.value.toolArgs == (if role == Tool then Some(map[]) else None)
  {
  }

  /** A separator line that is neither a boundary nor a field line of an
      open tool message is skipped: nothing is closed, opened or changed. */
  lemma SeparatorLineSkipped(line: string, window: seq<LineInfo>, current: Option<Draft>)
    requires IsSeparatorLine(line)
    ensures LineEffect(Classify(line), window, current) == Effect(None, current, false)
  {
    SeparatorIsNoBoundary(line);
    SeparatorIsNoField(line);
    SeparatorHasNoText(line, ToolCallsHeader);
  }

  lemma SeparatorIsNoBoundary(line: string)
    requires IsSeparatorLine(line)
    ensures BoundaryRole(line).None?
  {
    SeparatorHasNoText(line, HumanMarker);
    SeparatorHasNoText(line, AiMarker);
    SeparatorHasNoText(line, ToolMarker);
    BoundaryPriority(line);
  }

  lemma SeparatorIsNoField(line: string)
    requires IsSeparatorLine(line)
    ensures ToolField(line).None?
  {
    SeparatorTrimmedStart(line, "Name:");
    SeparatorHasNoText(line, "Call ID:");
    SeparatorHasNoText(line, "call_");
    SeparatorTrimmedStart(line, "Args:");
    SeparatorNoArgKey(line);
  }

  lemma SeparatorTrimmedStart(line: string, p: string)
    requires IsSeparatorLine(line) && |p| > 0 && p[0] != '='
    ensures !StartsWith(Trim(line), p)
  {
    var a, b := TrimSlice(line);
    if |Trim(line)| > 0 {
      assert Trim(line)[0] == line[a];
    }
  }

  lemma SeparatorNoArgKey(line: string)
    requires IsSeparatorLine(line)
    ensures ArgKey(line).None?
  {
    LeadingSpaceExact(line, 0);
  }

  /** A line of only `=` contains no text that has a character other than
      `=`. */
  lemma SeparatorHasNoText(line: string, p: string)
    requires IsSeparatorLine(line) && |p| > 0 && p[0] != '='
    ensures !Contains(line, p)
  {

  }

  /** A field line of an open tool message is consumed without touching
      its lines: a `Name:` line sets the tool name to the trimmed text after
      the label, a line with a call id sets the call id to the first one,
      and an argument line assigns its trimmed value to its key. */
  lemma ToolFieldLine(line: string, window: seq<LineInfo>, d: Draft)
    requires d.role == Tool && BoundaryRole(line).None? && ToolField(line).Some?
    ensures var f := LineEffect(Classify(line), window, Some(d));
      && f.emitted.None? && !f.tookWindow && f.current.Some?
      && f.current.value.lines == d.lines && f.current.value.role == Tool
      && (StartsWith(Trim(line), "Name:") ==>
            f.current.value == d.(toolName := Some(Trim(Trim(line)[5..]))))
      && (!StartsWith(Trim(line), "Name:") && FirstCallId(line).Some? ==>
            f.current.value == d.(toolCallId := FirstCallId(line)))
      && (!StartsWith(Trim(line), "Name:") && FirstCallId(line).None?
            && (Contains(line, "Call ID:") || Contains(line, "call_")) ==>
            f.current.value == d)
      && (!StartsWith(Trim(line), "Name:") && !Contains(line, "Call ID:") && !Contains(line, "call_") ==>
            && (ArgEntry(line).None? ==> f.current.value == d)
            && (forall key, value | ArgEntry(line) == Some((key, value)) && key != ProtoKey ::
                  f.current.value == d.(toolArgs := Some(d.toolArgs.GetOr(map[])[key := value])))
            && (ArgEntry(line).Some? && ArgEntry(line).value.0 == ProtoKey ==>
                  f.current.value == d.(toolArgs := Some(d.toolArgs.GetOr(map[])))))
  {
    if StartsWith(Trim(line), "Name:") {
      NameValueMeaning(line);
    } else if FirstCallId(line).Some? {
      CallIdNeedsPrefix(line);
    }
  }

  /** Outside a field line and a `Tool Calls:` line, a line of an open
      message that is not a separator line is added to its lines
      verbatim. */
  lemma PlainLine(line: string, window: seq<LineInfo>, d: Draft)
    requires BoundaryRole(line).None? && !IsSeparatorLine(line)
    requires d.role == Tool ==> ToolField(line).None?
    requires d.role == Ai ==> !Contains(line, ToolCallsHeader)
    ensures LineEffect(Classify(line), window, Some(d)) == Effect(None, Some(d.(lines := d.lines + [line])), false)
  {
  }

  /** A `Tool Calls:` line of an open ai message adds the header once and
      then the non-blank lines of its window, in order; the window holds at
      most 19 lines, none with a run of 30 `=`, and the scan resumes right
      after it, at a line with such a run, at the window limit or at the
      end of input. */
  lemma ToolCallsLine(infos: seq<LineInfo>, i: nat, d: Draft)
    requires i < |infos| && d.role == Ai && infos[i].boundary.None? && infos[i].toolCalls
    ensures var s := Consume(infos, i, Some(d));
      var window := infos[i + 1..s.next];
      && s.emitted.None? && s.current.Some?
      && |window| < WindowLimit
      && (forall k | 0 <= k < |window| :: !window[k].equalsRun)
      && (s.next == |infos| || s.next == i + WindowLimit || infos[s.next].equalsRun)
      && s.current.value.lines == d.lines + [ToolCallsHeader] + TakenLines(window)
      && s.current.value.toolArgs == FoldCalls(d.toolArgs, window)
      && s.current.value.(lines := d.lines, toolArgs := d.toolArgs) == d
  {
    var e := WindowEnd(infos, i, i + 1);
    var window := infos[i + 1..e];
    forall k | 0 <= k < |window| ensures !window[k].equalsRun {
      assert window[k] == infos[i + 1 + k];
    }
  }

  /** A line in a `Tool Calls:` window is taken into the ai message's
      lines whatever it says, as long as it is not blank and has no run of
      30 `=`: a boundary line there opens no message. */
  lemma WindowSwallowsLine(infos: seq<LineInfo>, i: nat, d: Draft)
    requires i + 1 < |infos| && d.role == Ai && infos[i].boundary.None? && infos[i].toolCalls
    requires !infos[i + 1].equalsRun && infos[i + 1].taken
    ensures var s := Consume(infos, i, Some(d));
      s.next > i + 1 && s.current.Some? && infos[i + 1].text in s.current.value.lines
  {
    var e := WindowEnd(infos, i, i + 1);
    assert infos[i + 1..e][0] == infos[i + 1];
  }

  /** So a short boundary line right after `Tool Calls:` ends up in the
      content of the ai message instead of opening a human message. */
  lemma BoundaryInsideWindow()
    ensures var x := Classify("Human Message");
      x.boundary == Some(Human) && !x.equalsRun && x.taken
  {
    var line := "Human Message";
    ContainsWhenOccurs(line, HumanMarker, 0);
    assert !AllSpace(line) by { assert !IsSpace(line[0]); }
  }

  /** Without an open message, a line that is not a boundary changes
      nothing. */
  lemma PreambleLine(infos: seq<LineInfo>, i: nat)
    requires i < |infos| && infos[i].boundary.None?
    ensures Consume(infos, i, None) == Step(None, None, i + 1)
  {
  }

  /** One turn of the scan, for a step already computed. */
  lemma ScanFromStepped(infos: seq<LineInfo>, i: nat, current: Option<Draft>, s: Step)
    requires i < |infos| && s == Consume(infos, i, current)
    ensures ScanFrom(infos, i, current) ==
      (if s.emitted.Some? then [s.emitted.value] else []) + ScanFrom(infos, s.next, s.current)
  {
  }

  lemma PreambleStep(infos: seq<LineInfo>, i: nat)
    requires i < |infos| && infos[i].boundary.None?
    ensures ScanFrom(infos, i, None) == ScanFrom(infos, i + 1, None)
  {
    PreambleLine(infos, i);
    ScanFromStepped(infos, i, None, Step(None, None, i + 1));
  }

  /** At the end of input the open message, if any, is closed as it stands
      and is the last message; without one nothing more is emitted. */
  lemma ScanEndCloses(infos: seq<LineInfo>, current: Option<Draft>)
    ensures ScanFrom(infos, |infos|, current) == (if current.Some? then [current.value] else [])
  {
  }

  /** A line that an open message of role `role` simply gathers. */
  predicate PlainInfo(x: LineInfo, role: Role) {
    && x.boundary.None? && !x.separator
    && (role == Tool ==> x.field.None?)
    && (role == Ai ==> !x.toolCalls)
  }

  /** The texts of a run of classified lines. */
  function Texts(xs: seq<LineInfo>): (ts: seq<string>)
    ensures |ts| == |xs| && forall k | 0 <= k < |xs| :: ts[k] == xs[k].text
  {
    seq(|xs|, k requires 0 <= k < |xs| => xs[k].text)
  }

  lemma TextsCons(xs: seq<LineInfo>)
    requires |xs| > 0
    ensures Texts(xs) == [xs[0].text] + Texts(xs[1..])
  {
    assert Texts(xs) == [xs[0].text] + Texts(xs[1..]);
  }

  /** When every line from `i` to the end is one the open message simply
      gathers, the scan emits that message alone, closed at the end of
      input with all those lines, in order, and its fields as they were. */
  lemma {:induction false} PlainTail(infos: seq<LineInfo>, i: nat, d: Draft)
    requires i <= |infos|
    requires forall k | i <= k < |infos| :: PlainInfo(infos[k], d.role)
    ensures ScanFrom(infos, i, Some(d)) == [d.(lines := d.lines + Texts(infos[i..]))]
    decreases |infos| - i
  {
    if i == |infos| {
      ScanEndCloses(infos, Some(d));
      assert Texts(infos[i..]) == [];
      assert d.lines + [] == d.lines;
    } else {
      var d' := d.(lines := d.lines + [infos[i].text]);
      var s := Consume(infos, i, Some(d));
      assert s == Step(None, Some(d'), i + 1);
      ScanFromStepped(infos, i, Some(d), s);
      PlainTail(infos, i + 1, d');
      TextsCons(infos[i..]);
      assert infos[i..][1..] == infos[i + 1..];
      assert d'.lines + Texts(infos[i + 1..]) == d.lines + Texts(infos[i..]);
    }
  }

  /** Equal neighbours all the way make the ends equal. */
  lemma {:induction false} ChainEqual<T>(f: nat -> T, i: nat, n: nat)
    requires i <= n
    requires forall k | i <= k < n :: f(k) == f(k + 1)
    ensures f(i) == f(n)
    decreases n - i
  {
    if i < n {
      ChainEqual(f, i + 1, n);
    }
  }

  /** Lines before the first boundary line, blank or not, contribute to no
      message: scanning from the start gives what scanning from that
      boundary line gives. */
  lemma PreambleIgnored(infos: seq<LineInfo>, i: nat, n: nat)
    requires i <= n <= |infos|
    requires forall k | i <= k < n :: infos[k].boundary.None?
    ensures ScanFrom(infos, i, None) == ScanFrom(infos, n, None)
  {
    var f := (k: nat) => if k <= |infos| then ScanFrom(infos, k, None) else [];
    forall k | i <= k < n
      ensures f(k) == f(k + 1)
    {
      PreambleStep(infos, k);
    }
    ChainEqual(f, i, n);
  }

  /** An input without any boundary line yields no message at all. */
  lemma NoBoundaryNoMessage(lines: seq<string>)
    requires forall k | 0 <= k < |lines| :: BoundaryRole(lines[k]).None?
    ensures Scan(lines) == []
  {
    var infos := ClassifyAll(lines);
    assert forall k | 0 <= k < |infos| :: infos[k].boundary == BoundaryRole(lines[k]);
    PreambleIgnored(infos, 0, |infos|);
    assert ScanFrom(infos, |infos|, None) == [];
  }

  /** The indices of the boundary lines the scan stops at, in order. */
  function BoundaryPositions(infos: seq<LineInfo>, i: nat, current: Option<Draft>): seq<nat>
    requires i <= |infos|
    decreases |infos| - i
  {
    if i == |infos| then []
    else
      var s := Consume(infos, i, current);
      (if infos[i].boundary.Some? then [i] else []) + BoundaryPositions(infos, s.next, s.current)
  }

  /** The indices of the boundary lines the scan of the transcript stops at. */
  function Stops(lines: seq<string>): seq<nat> {
    BoundaryPositions(ClassifyAll(lines), 0, None)
  }

  lemma PositionsStepped(infos: seq<LineInfo>, i: nat, current: Option<Draft>, s: Step)
    requires i < |infos| && s == Consume(infos, i, current)
    ensures BoundaryPositions(infos, i, current) ==
      (if infos[i].boundary.Some? then [i] else []) + BoundaryPositions(infos, s.next, s.current)
  {
  }

  /** Away from a boundary line the open message keeps its role, and no
      message is opened or closed. */
  lemma ConsumeKeepsRole(infos: seq<LineInfo>, i: nat, current: Option<Draft>)
    requires i < |infos| && infos[i].boundary.None?
    ensures var s := Consume(infos, i, current);
      && s.emitted.None?
      && s.current.Some? == current.Some?
      && (current.Some? ==> s.current.value.role == current.value.role)
  {
  }

  function RoleOf(current: Option<Draft>): Option<Role> {
    if current.Some? then Some(current.value.role) else None
  }

  /** `ds` holds the message open with role `open` (if any) followed by one
      message per index of `ps`, each with the role of the boundary line at
      that index; the indices lie in `[lo, |infos|)` and strictly increase. */
  predicate Follows(infos: seq<LineInfo>, lo: nat, open: Option<Role>, ps: seq<nat>, ds: seq<Draft>) {
    var off := if open.Some? then 1 else 0;
    && |ds| == off + |ps|
    && (open.Some? ==> ds[0].role == open.value)
    && (forall k | 0 <= k < |ps| :: lo <= ps[k] < |infos| && infos[ps[k]].boundary == Some(ds[off + k].role))
    && (forall k | 0 < k < |ps| :: ps[k - 1] < ps[k])
  }

  lemma FollowsAtBoundary(infos: seq<LineInfo>, i: nat, open: Option<Role>, role: Role,
                          head: seq<Draft>, ps: seq<nat>, ds: seq<Draft>)
    requires i < |infos| && infos[i].boundary == Some(role)
    requires |head| == (if open.Some? then 1 else 0)
    requires open.Some? ==> head[0].role == open.value
    requires Follows(infos, i + 1, Some(role), ps, ds)
    ensures Follows(infos, i, open, [i] + ps, head + ds)
  {
    var off := |head|;
    var ps2 := [i] + ps;
    var ds2 := head + ds;
    assert ds2[off] == ds[0];
    forall k | 0 < k < |ps2|
      ensures i <= ps2[k] < |infos| && infos[ps2[k]].boundary == Some(ds2[off + k].role)
    {
      assert ps2[k] == ps[k - 1];
      assert ds2[off + k] == ds[1 + (k - 1)];
    }
    forall k | 0 < k < |ps2|
      ensures ps2[k - 1] < ps2[k]
    {
      if k > 1 {
        assert ps2[k - 1] == ps[k - 2];
      }
    }
  }

  lemma FollowsStepBoundary(infos: seq<LineInfo>, i: nat, current: Option<Draft>, s: Step, role: Role)
    requires i < |infos| && s == Consume(infos, i, current) && infos[i].boundary == Some(role)
    requires Follows(infos, s.next, RoleOf(s.current), BoundaryPositions(infos, s.next, s.current),
                     ScanFrom(infos, s.next, s.current))
    ensures Follows(infos, i, RoleOf(current), BoundaryPositions(infos, i, current), ScanFrom(infos, i, current))
  {
    var ps := BoundaryPositions(infos, s.next, s.current);
    var ds := ScanFrom(infos, s.next, s.current);
    BoundaryClosesAndOpens(infos, i, current);
    PositionsStepped(infos, i, current, s);
    ScanFromStepped(infos, i, current, s);
    var head := if s.emitted.Some? then [s.emitted.value] else [];
    assert s.next == i + 1 && RoleOf(s.current) == Some(role);
    FollowsAtBoundary(infos, i, RoleOf(current), role, head, ps, ds);
  }

  lemma FollowsStepPlain(infos: seq<LineInfo>, i: nat, current: Option<Draft>, s: Step)
    requires i < |infos| && s == Consume(infos, i, current) && infos[i].boundary.None?
    requires Follows(infos, s.next, RoleOf(s.current), BoundaryPositions(infos, s.next, s.current),
                     ScanFrom(infos, s.next, s.current))
    ensures Follows(infos, i, RoleOf(current), BoundaryPositions(infos, i, current), ScanFrom(infos, i, current))
  {
    ConsumeKeepsRole(infos, i, current);
    PositionsStepped(infos, i, current, s);
    ScanFromStepped(infos, i, current, s);
    assert RoleOf(s.current) == RoleOf(current);
  }

  lemma {:induction false} ScanFromFollowsBoundaries(infos: seq<LineInfo>, i: nat, current: Option<Draft>)
    requires i <= |infos|
    ensures Follows(infos, i, RoleOf(current), BoundaryPositions(infos, i, current), ScanFrom(infos, i, current))
    decreases |infos| - i
  {
    if i < |infos| {
      var s := Consume(infos, i, current);
      ScanFromFollowsBoundaries(infos, s.next, s.current);
      if infos[i].boundary.Some? {
        FollowsStepBoundary(infos, i, current, s, infos[i].boundary.value);
      } else {
        FollowsStepPlain(infos, i, current, s);
      }
    }
  }

  /** Messages come out in input order, one per boundary line the scan
      stops at, each with the role its boundary line names. */
  lemma ScanFollowsBoundaries(lines: seq<string>)
    ensures var ps := Stops(lines);
      && |Scan(lines)| == |ps|
      && (forall k | 0 <= k < |ps| :: ps[k] < |lines| && BoundaryRole(lines[ps[k]]) == Some(Scan(lines)[k].role))
      && (forall k | 0 < k < |ps| :: ps[k - 1] < ps[k])
  {
    var infos := ClassifyAll(lines);
    ScanFromFollowsBoundaries(infos, 0, None);
    var ps := Stops(lines);
    forall k | 0 <= k < |ps|
      ensures BoundaryRole(lines[ps[k]]) == infos[ps[k]].boundary
    {
      assert infos[ps[k]] == Classify(lines[ps[k]]);
    }
  }

  /** The indices from `i` on whose lines are boundary lines. */
  function BoundaryIndices(infos: seq<LineInfo>, i: nat): seq<nat>
    requires i <= |infos|
    decreases |infos| - i
  {
    if i == |infos| then []
    else (if infos[i].boundary.Some? then [i] else []) + BoundaryIndices(infos, i + 1)
  }

  lemma {:induction false} BoundaryIndicesMembers(infos: seq<LineInfo>, i: nat)
    requires i <= |infos|
    ensures forall k :: k in BoundaryIndices(infos, i) <==> i <= k < |infos| && infos[k].boundary.Some?
    decreases |infos| - i
  {
    if i < |infos| {
      BoundaryIndicesMembers(infos, i + 1);
    }
  }

  /** Without a `Tool Calls:` line the scan stops at every boundary line. */
  lemma EveryBoundaryStep(infos: seq<LineInfo>, i: nat, current: Option<Draft>, s: Step)
    requires i < |infos| && s == Consume(infos, i, current) && !infos[i].toolCalls
    requires BoundaryPositions(infos, i + 1, s.current) == BoundaryIndices(infos, i + 1)
    ensures BoundaryPositions(infos, i, current) == BoundaryIndices(infos, i)
  {
    assert s.next == i + 1;
    PositionsStepped(infos, i, current, s);
  }

  lemma {:induction false} EveryBoundaryWithoutToolCalls(infos: seq<LineInfo>, i: nat, current: Option<Draft>)
    requires i <= |infos|
    requires forall k | i <= k < |infos| :: !infos[k].toolCalls
    ensures BoundaryPositions(infos, i, current) == BoundaryIndices(infos, i)
    decreases |infos| - i
  {
    if i < |infos| {
      var s := Consume(infos, i, current);
      EveryBoundaryWithoutToolCalls(infos, i + 1, s.current);
      EveryBoundaryStep(infos, i, current, s);
    }
  }

  /** In a transcript without a `Tool Calls:` line the scan stops at
      exactly the boundary lines, so every boundary line opens a message. */
  lemma StopsAtEveryBoundary(lines: seq<string>)
    requires forall k | 0 <= k < |lines| :: !Contains(lines[k], ToolCallsHeader)
    ensures forall k :: k in Stops(lines) <==> 0 <= k < |lines| && BoundaryRole(lines[k]).Some?
  {
    var infos := ClassifyAll(lines);
    assert forall k | 0 <= k < |infos| :: infos[k].toolCalls == Contains(lines[k], ToolCallsHeader)
                                         && infos[k].boundary == BoundaryRole(lines[k]);
    EveryBoundaryWithoutToolCalls(infos, 0, None);
    BoundaryIndicesMembers(infos, 0);
  }
}

=== FILE: transcript.dfy ===
/** The transcript parser of the conversation viewer: colour codes are
    stripped, the text is split into lines, a line-by-line state machine
    builds human, ai and tool messages, and only the non-empty ai messages
    are kept, with adjacent repeats collapsed. */
module Transcript {
  import opened Wrappers
  import opened JsText
  import opened Patterns
  import Ansi

  /** The `type` of a message. */
  datatype Role = Human | Ai | Tool

  /** `ConversationMessage`; an optional property the object does not have
      is `None`.  Tool arguments are always strings in this parser. */
  datatype Message = Message(
    role: Role,
    content: string,
    toolName: Option<string>,
    toolCallId: Option<string>,
    toolArgs: Option<map<string, string>>)

  /** The open message: `currentMessage` with the lines gathered so far in
      `currentContent`.  The scratch flag `inToolCall` is true exactly when
      the open message is a tool message, so it is not kept separately. */
  datatype Draft = Draft(
    role: Role,
    lines: seq<string>,
    toolName: Option<string>,
    toolCallId: Option<string>,
    toolArgs: Option<map<string, string>>)

  const HumanMarker: string := "Human Message"
  const AiMarker: string := "Ai Message"
  const ToolMarker: string := "Tool Message"
  const ToolCallsHeader: string := "Tool Calls:"
  /** The one key a plain JavaScript object does not store on assignment. */
  const ProtoKey: string := "__proto__"
  /** The lookahead after `Tool Calls:` stops before line `i + WindowLimit`. */
  const WindowLimit: nat := 20

  /** The message a boundary line opens. */
  function Fresh(role: Role): Draft {
    match role
    case Human => Draft(Human, [], None, None, None)
    case Ai => Draft(Ai, [], None, None, None)
    case Tool => Draft(Tool, [], Some(""), Some(""), Some(map[]))
  }

  /** `currentMessage.content = currentContent.join('\n').trim()`. */
  function Finalize(d: Draft): Message {
    Message(d.role, Trim(Join(d.lines, "\n")), d.toolName, d.toolCallId, d.toolArgs)
  }

  /** `obj[key] = value` on a plain object: assigning a string to
      `__proto__` leaves the object unchanged. */
  function Upsert(m: map<string, string>, key: string, value: string): map<string, string> {
    if key == ProtoKey then m else m[key := value]
  }

  /** The role a boundary line opens. The parser checks human, then ai,
      then tool; each test is `includes(marker)` or the framed regex form. */
  function BoundaryRole(line: string): Option<Role> {
    if Contains(line, HumanMarker) || Framed(line, HumanMarker) then Some(Human)
    else if Contains(line, AiMarker) || Framed(line, AiMarker) then Some(Ai)
    else if Contains(line, ToolMarker) || Framed(line, ToolMarker) then Some(Tool)
    else None
  }

  /** A recognised field line of a tool message. */
  datatype Field =
    | NameField(name: string)
    | CallField(id: Option<string>)
    | ArgField(entry: Option<(string, string)>)

  /** Classification of a line inside a tool message: a `Name:` line first,
      then a call-id line, then an argument line. */
  function ToolField(line: string): Option<Field> {
    if StartsWith(Trim(line), "Name:") then Some(NameField(NameValue(line)))
    else if Contains(line, "Call ID:") || Contains(line, "call_") then Some(CallField(FirstCallId(line)))
    else if StartsWith(Trim(line), "Args:") || ArgKey(line).Some? then Some(ArgField(ArgEntry(line)))
    else None
  }

  /** The effect of a field line on the open tool message. */
  function ApplyField(d: Draft, f: Field): Draft {
    match f
    case NameField(name) => d.(toolName := Some(name))
    case CallField(id) => if id.Some? then d.(toolCallId := id) else d
    case ArgField(entry) =>
      match entry
      case None => d
      case Some((key, value)) => d.(toolArgs := Some(Upsert(d.toolArgs.GetOr(map[]), key, value)))
  }

  /** What a line inside a `Tool Calls:` window records: the tool name of
      `\s+(\w+)\s+\(([^)]+)\)` and the line's call id, when it has both. */
  function CallEntry(line: string): Option<(string, string)> {
    match ToolCallName(line)
    case None => None
    case Some(name) =>
      match FirstCallId(line)
      case None => None
      case Some(id) => Some((name, id))
  }

  /** The test `toolLine.trim() && !toolLine.match(/^\s*$/)` a window line
      must pass to be taken. */
  predicate IsTaken(line: string) {
    Trim(line) != "" && !AllSpace(line)
  }

  /** Everything the `for` loop tests about one line.  Each test depends on
      that line alone, so the model classifies every line once, up front,
      and the scan reads only these answers. */
  datatype LineInfo = LineInfo(
    text: string,
    boundary: Option<Role>,
    field: Option<Field>,
    toolCalls: bool,
    separator: bool,
    blank: bool,
    equalsRun: bool,
    taken: bool,
    call: Option<(string, string)>)

  function Classify(line: string): LineInfo {
    LineInfo(line, BoundaryRole(line), ToolField(line), Contains(line, ToolCallsHeader),
             IsSeparatorLine(line), Trim(line) == "", HasEqualsRun(line), IsTaken(line), CallEntry(line))
  }

  function ClassifyAll(lines: seq<string>): (infos: seq<LineInfo>)
    ensures |infos| == |lines|
    ensures forall k | 0 <= k < |lines| :: infos[k] == Classify(lines[k])
  {
    seq(|lines|, k requires 0 <= k < |lines| => Classify(lines[k]))
  }

  /** The taken lines of a window, in order (`toolCalls`). */
  function TakenLines(ws: seq<LineInfo>): (r: seq<string>)
    ensures forall l | l in r :: exists k | 0 <= k < |ws| :: ws[k].taken && ws[k].text == l
    ensures forall k | 0 <= k < |ws| && ws[k].taken :: ws[k].text in r
  {
    if |ws| == 0 then []
    else
      var rest := TakenLines(ws[1..]);
      assert forall k | 0 <= k < |ws| - 1 :: ws[1..][k] == ws[k + 1];
      (if ws[0].taken then [ws[0].text] else []) + rest
  }

  /** `toolArgs` after one taken window line: the ai message gets an
      argument object as soon as a line has a call entry, and the entry is
      assigned into it. */
  function RecordCall(args: Option<map<string, string>>, x: LineInfo): Option<map<string, string>> {
    match x.call
    case None => args
    case Some((name, id)) => Some(Upsert(args.GetOr(map[]), name, id))
  }

  /** `toolArgs` after the window lines `ws`, taken one after another. */
  function FoldCalls(args: Option<map<string, string>>, ws: seq<LineInfo>): Option<map<string, string>>
    decreases |ws|
  {
    if |ws| == 0 then args
    else FoldCalls(if ws[0].taken then RecordCall(args, ws[0]) else args, ws[1..])
  }

  /** Where the loop `while (j < lines.length && !lines[j].match(/={30,}/) && j < i + 20)`
      started at `j` after a `Tool Calls:` line at index `i` stops. */
  function WindowEnd(infos: seq<LineInfo>, i: nat, j: nat): (e: nat)
    requires i < j <= |infos|
    ensures j <= e <= |infos|
    ensures e <= i + WindowLimit || e == j
    ensures forall k | j <= k < e :: !infos[k].equalsRun
    ensures e == |infos| || e >= i + WindowLimit || infos[e].equalsRun
    decreases |infos| - j
  {
    if j < |infos| && !infos[j].equalsRun && j < i + WindowLimit then WindowEnd(infos, i, j + 1)
    else j
  }

  /** What one turn of the `for` loop does with its line: the message it
      closes (pushed to `parsed`), the open message afterwards, and whether
      it consumed the `Tool Calls:` window after the line. `window` is the
      slice of lines that window would cover. */
  datatype Effect = Effect(emitted: Option<Draft>, current: Option<Draft>, tookWindow: bool)

  function LineEffect(x: LineInfo, window: seq<LineInfo>, current: Option<Draft>): Effect {
    match x.boundary
    case Some(role) => Effect(current, Some(Fresh(role)), false)
    case None =>
      if current.Some? && current.value.role == Tool && x.field.Some? then
        Effect(None, Some(ApplyField(current.value, x.field.value)), false)
      else if current.Some? && current.value.role == Ai && x.toolCalls then
        var d := current.value;
        Effect(None, Some(d.(lines := d.lines + [ToolCallsHeader] + TakenLines(window),
                             toolArgs := FoldCalls(d.toolArgs, window))), true)
      else if x.separator then
        Effect(None, current, false)
      else if current.None? && x.blank then
        Effect(None, current, false)
      else if current.Some? then
        Effect(None, Some(current.value.(lines := current.value.lines + [x.text])), false)
      else
        Effect(None, current, false)
  }

  /** One turn of the `for` loop, with the index the next turn starts at. */
  datatype Step = Step(emitted: Option<Draft>, current: Option<Draft>, next: nat)

  /** The body of the `for` loop for the line at index `i`: after a
      consumed window the loop resumes at the window's end `j`, since
      `i = j - 1` is followed by the loop's `i++`. */
  function Consume(infos: seq<LineInfo>, i: nat, current: Option<Draft>): (s: Step)
    requires i < |infos|
    ensures i < s.next <= |infos|
  {
    var e := WindowEnd(infos, i, i + 1);
    var f := LineEffect(infos[i], infos[i + 1..e], current);
    Step(f.emitted, f.current, if f.tookWindow then e else i + 1)
  }

  /** The scan from index `i` with open message `current`, closing the
      last open message at the end of input. */
  function ScanFrom(infos: seq<LineInfo>, i: nat, current: Option<Draft>): seq<Draft>
    requires i <= |infos|
    decreases |infos| - i
  {
    if i == |infos| then
      (if current.Some? then [current.value] else [])
    else
      var s := Consume(infos, i, current);
      (if s.emitted.Some? then [s.emitted.value] else []) + ScanFrom(infos, s.next, s.current)
  }

  /** Every message of the transcript, closed, in the order they were pushed. */
  function Scan(lines: seq<string>): seq<Draft> {
    ScanFrom(ClassifyAll(lines), 0, None)
  }

  function FinalizeAll(ds: seq<Draft>): (ms: seq<Message>)
    ensures |ms| == |ds|
    ensures forall k | 0 <= k < |ds| :: ms[k] == Finalize(ds[k])
  {
    seq(|ds|, k requires 0 <= k < |ds| => Finalize(ds[k]))
  }

  /** JavaScript truthiness of an optional string property. */
  predicate Truthy(o: Option<string>) {
    o.Some? && o.value != ""
  }

  /** The filter `msg.type === 'ai' && (msg.content || msg.toolName)`. */
  predicate Shown(m: Message) {
    m.role == Ai && (m.content != "" || Truthy(m.toolName))
  }

  /** `parsed.filter(...)`: the shown messages, in order. */
  function KeepAi(ms: seq<Message>): (r: seq<Message>)
    ensures |r| <= |ms|
    ensures forall m | m in r :: m in ms && Shown(m)
    ensures forall m | m in ms && Shown(m) :: m in r
  {
    if |ms| == 0 then []
    else (if Shown(ms[0]) then [ms[0]] else []) + KeepAi(ms[1..])
  }

  /** No two neighbours have equal trimmed content. */
  predicate NoAdjacentRepeats(ms: seq<Message>) {
    forall k | 0 < k < |ms| :: Trim(ms[k - 1].content) != Trim(ms[k].content)
  }

  /** The dedup loop: `msg` is pushed unless the last pushed message has
      the same trimmed content. */
  function DedupInto(kept: seq<Message>, rest: seq<Message>): (r: seq<Message>)
    ensures |kept| <= |r| <= |kept| + |rest|
    ensures r[..|kept|] == kept
    decreases |rest|
  {
    if |rest| == 0 then kept
    else if |kept| == 0 || Trim(kept[|kept| - 1].content) != Trim(rest[0].content) then
      var r := DedupInto(kept + [rest[0]], rest[1..]);
      assert r[..|kept|] == r[..|kept| + 1][..|kept|];
      r
    else DedupInto(kept, rest[1..])
  }

  function Dedup(ms: seq<Message>): seq<Message> {
    DedupInto([], ms)
  }

  /** The parsed, filtered and deduplicated messages of a pasted transcript. */
  function Parse(text: string): seq<Message> {
    if Trim(text) == "" then []
    else Dedup(KeepAi(FinalizeAll(Scan(Split(Ansi.Strip(text), '\n')))))
  }
}

=== FILE: window_props.dfy ===
/** Properties of the bounded lookahead that follows a `Tool Calls:` line
    inside an ai message. */
module WindowProps {
  import opened Wrappers
  import opened JsText
  import opened Patterns
  import opened Transcript

  /** A taken window line assigns `key` in the ai message's argument map. */
  predicate Writes(x: LineInfo, key: string) {
    x.taken && x.call.Some? && x.call.value.0 == key
  }

  function ArgsOf(args: Option<map<string, string>>): map<string, string> {
    args.GetOr(map[])
  }

  /** The window lines are taken one after another: the lines taken from
      two consecutive stretches are those of the first, then those of the
      second. */
  lemma {:induction false} TakenLinesAppend(a: seq<LineInfo>, b: seq<LineInfo>)
    ensures TakenLines(a + b) == TakenLines(a) + TakenLines(b)
    decreases |a|
  {
    if |a| > 0 {
      assert (a + b)[1..] == a[1..] + b;
      TakenLinesAppend(a[1..], b);
    } else {
      assert a + b == b;
    }
  }

  /** A single window line is taken exactly when it passes the test. */
  lemma TakenLinesOne(x: LineInfo)
    ensures TakenLines([x]) == if x.taken then [x.text] else []
  {
  }

  /** `out` lists the texts of the taken lines of `ws` at the strictly
      increasing positions `ks`, each taken position once. */
  predicate TakenAt(ws: seq<LineInfo>, ks: seq<nat>, out: seq<string>) {
    && |ks| == |out|
    && (forall t | 0 <= t < |ks| :: ks[t] < |ws| && ws[ks[t]].taken && ws[ks[t]].text == out[t])
    && (forall t | 0 < t < |ks| :: ks[t - 1] < ks[t])
    && (forall k | 0 <= k < |ws| && ws[k].taken :: k in ks)
  }

  lemma TakenAtExtend(ws: seq<LineInfo>, x: LineInfo, ks: seq<nat>, out: seq<string>)
    requires TakenAt(ws, ks, out)
    ensures TakenAt(ws + [x], ks + (if x.taken then [|ws|] else []),
                    out + (if x.taken then [x.text] else []))
  {
    var ws' := ws + [x];
    var ks' := ks + (if x.taken then [|ws|] else []);
    var out' := out + (if x.taken then [x.text] else []);
    forall t | 0 <= t < |ks'|
      ensures ks'[t] < |ws'| && ws'[ks'[t]].taken && ws'[ks'[t]].text == out'[t]
    {
      if t < |ks| {
        assert ks'[t] == ks[t] && ws'[ks[t]] == ws[ks[t]] && out'[t] == out[t];
      }
    }
    forall k | 0 <= k < |ws'| && ws'[k].taken
      ensures k in ks'
    {
      if k < |ws| {
        assert ws'[k] == ws[k];
      }
    }
  }

  /** The taken lines are the texts of the taken window lines at strictly
      increasing positions `ks`, each position once, none left out. */
  lemma {:induction false} TakenOrigins(ws: seq<LineInfo>) returns (ks: seq<nat>)
    ensures TakenAt(ws, ks, TakenLines(ws))
    decreases |ws|
  {
    if |ws| == 0 {
      ks := [];
    } else {
      var n := |ws| - 1;
      var front := ws[..n];
      var before := TakenOrigins(front);
      assert ws == front + [ws[n]];
      TakenLinesAppend(front, [ws[n]]);
      TakenLinesOne(ws[n]);
      TakenAtExtend(front, ws[n], before, TakenLines(front));
      ks := before + (if ws[n].taken then [n] else []);
    }
  }

  /** Keys no line writes keep their presence and value; `__proto__` is
      never stored. */
  lemma {:induction false} FoldCallsUntouched(args: Option<map<string, string>>, ws: seq<LineInfo>, key: string)
    requires key == ProtoKey || forall k | 0 <= k < |ws| :: !Writes(ws[k], key)
    ensures key in ArgsOf(FoldCalls(args, ws)) <==> key in ArgsOf(args)
    ensures key in ArgsOf(args) ==> ArgsOf(FoldCalls(args, ws))[key] == ArgsOf(args)[key]
    decreases |ws|
  {
    if |ws| > 0 {
      var next := if ws[0].taken then RecordCall(args, ws[0]) else args;
      assert key in ArgsOf(next) <==> key in ArgsOf(args);
      assert key in ArgsOf(args) ==> ArgsOf(next)[key] == ArgsOf(args)[key];
      assert forall k | 0 <= k < |ws| - 1 :: ws[1..][k] == ws[k + 1];
      FoldCallsUntouched(next, ws[1..], key);
    }
  }

  /** In `toolArgs` each tool name is bound to the call id of the last
      taken window line naming it: the last write wins. */
  lemma {:induction false} FoldCallsLastWrite(args: Option<map<string, string>>, ws: seq<LineInfo>, key: string, k: nat)
    requires k < |ws| && Writes(ws[k], key) && key != ProtoKey
    requires forall k' | k < k' < |ws| :: !Writes(ws[k'], key)
    ensures FoldCalls(args, ws).Some?
    ensures key in FoldCalls(args, ws).value
    ensures FoldCalls(args, ws).value[key] == ws[k].call.value.1
    decreases |ws|
  {
    var next := if ws[0].taken then RecordCall(args, ws[0]) else args;
    assert forall j | 0 <= j < |ws| - 1 :: ws[1..][j] == ws[j + 1];
    if k == 0 {
      assert next.Some? && next.value[key] == ws[0].call.value.1;
      FoldCallsUntouched(next, ws[1..], key);
      FoldCallsKeepsSome(next, ws[1..]);
    } else {
      FoldCallsLastWrite(next, ws[1..], key, k - 1);
    }
  }

  lemma {:induction false} FoldCallsKeepsSome(args: Option<map<string, string>>, ws: seq<LineInfo>)
    requires args.Some?
    ensures FoldCalls(args, ws).Some?
    decreases |ws|
  {
    if |ws| > 0 {
      FoldCallsKeepsSome(if ws[0].taken then RecordCall(args, ws[0]) else args, ws[1..]);
    }
  }

  /** The ai message gets an argument map exactly when it had one or some
      taken window line carries a call entry. */
  lemma {:induction false} FoldCallsSome(args: Option<map<string, string>>, ws: seq<LineInfo>)
    ensures FoldCalls(args, ws).Some? <==>
      args.Some? || exists k | 0 <= k < |ws| :: ws[k].taken && ws[k].call.Some?
    decreases |ws|
  {
    if |ws| > 0 {
      var next := if ws[0].taken then RecordCall(args, ws[0]) else args;
      FoldCallsSome(next, ws[1..]);
      assert forall k | 0 <= k < |ws| - 1 :: ws[1..][k] == ws[k + 1];
      if exists k | 0 <= k < |ws| :: ws[k].taken && ws[k].call.Some? {
        var k :| 0 <= k < |ws| && ws[k].taken && ws[k].call.Some?;
        if k > 0 {
          assert ws[1..][k - 1].taken && ws[1..][k - 1].call.Some?;
        }
      }
    }
  }
}

=== FILE: wrappers.dfy ===
/** The optional-value datatype the model uses for JavaScript's `undefined`
    fields and for regex matches that may fail. */
module Wrappers {

  datatype Option<+T> = None | Some(value: T) {

    /** The wrapped value, or `default` when there is none. */
    function GetOr(default: T): T {
      match this
      case Some(v) => v
      case None => default
    }
  }
}
